=== FILE: README.md ===
# Request templates, modelled in Dafny

`lib/reqTemplate.js` compiles a JSON-shaped request template into a flat
list of resolvers, then evaluates them against a context to build a new
request. A template is a spec such as
`{ method: 'post', uri: '/a/{id}', body: { a: '{$.request.body.b}', c: 1 } }`.
Each leaf of the spec becomes a resolver: a setter for the leaf's dotted
path, plus the value it stores. The value is either a constant, a compiled
placeholder, or a URI template. Evaluation seeds the output with
`{ method: context.request.method }` and runs every resolver on it in
registration order.

The model is split into one module per component:

| file | module | what it holds |
|---|---|---|
| `results.dfy` | `Results` | `Option` and `Result` |
| `values.dfy` | `JsValues` | JavaScript values: JSON plus `undefined`. Objects are fields in `Object.keys` order, which `WellFormed` requires of every object. Also own-property reads (`GetKey`), sloppy-mode assignment (`PutKey`), canonical array indices and path lookup (`Lookup`). |
| `paths.dfy` | `Paths` | `path.split('.')`, its inverse `Join`, and `Diverge`: two paths part ways at some segment |
| `setter.dfy` | `Setter` | `_setAtPath`: a plan of (key, initializer kind) steps read off the spec, and the statements the generated function runs (`SetAt`) |
| `placeholder.dfy` | `Placeholder` | `compileTemplate`: the `{...}` shapes, the path grammar, the rewrite to an access expression (character by character, as the regular expressions do it), and the result cell that is reset after each call |
| `walker.dfy` | `Walker` | `_createTemplateResolvers` / `makeResolvers`: leaves in depth-first key order, resolvers per leaf, and the compile errors |
| `template.dfy` | `RequestTemplate` | the `Template` constructor and `Template.prototype.eval` |

Modelling choices:

- A resolver is data, not a closure. `Resolver(steps, source)` pairs the setter's plan with a source. A source is `Literal(v)`, `Expr(access)` (a compiled placeholder) or `UriTpl(t)` (a URI template).
- Evaluating a compiled placeholder is a property lookup along its access path. Any TypeError on the way reads as `undefined`, as the error handler at `lib/reqTemplate.js:66` makes it.
- URI template expansion comes from another library. It is the parameter `expand(template, params)` of `Eval`.
- The generated setter function is interpreted, not generated. The plan fixes each step's key and initializer (`[]` or `{}`) from the spec, as lines 20-26 do. `SetAt` performs the statements of lines 28-34.
- A thrown `Error` while compiling is a `CompileError`. `InvalidTemplate(message)` is the grammar rejection at line 52. `EmptyComposite` is the TypeError from `[].reduce` at line 117, when a part holds an empty object or array anywhere.
- The setter initializes an intermediate with `||` (line 31), so any falsy intermediate is replaced by a fresh container: `undefined`, `null`, `false`, `0` or `""`. `Setter.Intermediate` models this.

## Model

| member | source | states |
|---|---|---|
| JsValues.PutKey | lib/reqTemplate.js:31-33 | `x[k] = v` in sloppy mode. An object, or an array with an index key, reads `v` back at `k`. A string, number or boolean target is unchanged, as sloppy mode drops the assignment; so is an array given a non-index key (see "Left out"). On `undefined` or `null` JavaScript would throw, but the setter never assigns to them: every falsy intermediate is replaced first. Every other key reads as before. The value stays an object or array as it was, and object keys stay in JavaScript property order. |
| JsValues.SetField | lib/reqTemplate.js:31-33 | Assigning an object field: the key reads back the new value, every other key is unchanged, and property order is kept |
| JsValues.Insert | lib/reqTemplate.js:31-33 | A new key is spliced in at its insertion point, leaving all other fields in place. That point is behind every key that precedes the new one in property order, and in front of the first key that does not: an index key goes before the first larger index or non-index key, any other key goes last. The new key reads back its value, every other key is unchanged, and the order invariant is preserved. |
| JsValues.Replace | lib/reqTemplate.js:31-33 | Assigning an existing key keeps the key sequence, reads the new value at that key and keeps every other key's value |
| JsValues.IndexKeyRoundTrip | lib/reqTemplate.js:22 | The canonical string of an index reads back as that index, so `[i]` and `["i"]` address the same element |
| JsValues.ArrayIndexRoundTrip | lib/reqTemplate.js:22 | A key that is an array index is the canonical string of its index |
| JsValues.Lookup | lib/reqTemplate.js:64-74 | Evaluating a compiled placeholder reads its access path key by key. Reading any key of something that is not an object or array gives `undefined`: the TypeError on `undefined` or `null` is turned into `undefined` by the error handler (line 66), and a primitive has no own properties. |
| JsValues.LookupAppend | lib/reqTemplate.js:29-33 | Reading along `p + q` is reading `q` from what lies at `p`. This is what the prefix references `obj<ref>` rely on. |
| JsValues.EntryLookup | lib/reqTemplate.js:115-116 | Each entry enumerated from a container is read back by `subspec[key]`, and no other entry has the same key |
| Paths.Split | lib/reqTemplate.js:15 | `split('.')` always yields at least one segment, and no segment contains a dot |
| Paths.SplitJoin | lib/reqTemplate.js:15 | Splitting the dotted join of dot-free segments gives back the segments |
| Paths.JoinSplit | lib/reqTemplate.js:15 | Joining the segments of a split gives back the string |
| Paths.SplitExtend | lib/reqTemplate.js:116 | `path + '.' + key` with a dot-free key splits into the segments of `path` followed by `key` |
| Setter.Plan | lib/reqTemplate.js:20-26 | The plan has one step per path segment, with that segment as key. Step `i` initializes with the kind (array or object) of the spec at the prefix ending at segment `i`. |
| Setter.SetAt | lib/reqTemplate.js:28-34 | An `undefined` value, or an empty plan, leaves the object unchanged. Otherwise, along a reachable plan, the value ends up at the full path. Every path that parts ways with it reads as before. Each intermediate is a container: the existing one when it was truthy, else a fresh one of the planned kind. |
| Setter.WriteReaches | lib/reqTemplate.js:33 | The final assignment leaves the value at the full path |
| Setter.WriteFrame | lib/reqTemplate.js:29-33 | Writing along a path leaves unchanged every path that diverges from it |
| Setter.WriteShape | lib/reqTemplate.js:29-32 | After the write, each intermediate prefix holds a container. It keeps the kind of the existing value when that value was truthy, and takes the spec-derived initializer otherwise. |
| Setter.PlansAgree | lib/reqTemplate.js:20-26 | Two plans drawn from the same spec choose the same initializer wherever their paths agree |
| Setter.ReachPreserved | lib/reqTemplate.js:29-33 | A write along one planned path keeps every diverging planned path writable |
| Setter.PlanChained | lib/reqTemplate.js:22-24 | When the spec has only array indices below arrays, every step that initializes an array is followed by an index key |
| Setter.FreshReachable | lib/reqTemplate.js:29-32 | A plan whose first intermediate is missing can write its whole path: each intermediate is freshly initialized |
| Placeholder.CompilePlaceholder | lib/reqTemplate.js:49-62 | Compiling `{t}` fails exactly when `t` does not match the path grammar, with the message `"Invalid template " + t`. On success the access is rooted at the context exactly when `t` starts with `$`. It reads the dot-separated segments of `t` (without `$.`) from the context when `t` starts with `$`, and below `request.<part>` otherwise. Its rendering is the string the two rewrites produce. |
| Placeholder.TranslateRenders | lib/reqTemplate.js:55-62 | The rewrites are proved equal to a reference rendering built segment by segment. `$.` becomes the context root `rm`, and anything else goes under `m.request.<part>`. A segment with a hyphen becomes `['seg']` with its quotes escaped; any other segment stays `.seg`. |
| Placeholder.RewriteSegment | lib/reqTemplate.js:60-62 | The hyphen rewrite treats one dotted segment on its own. A segment with a hyphen becomes bracket access and the rest of the string is rewritten the same way. |
| Placeholder.CellNeverLeaks | lib/reqTemplate.js:64-80 | Over any series of calls, each call hands the setter exactly its own lookup result (`undefined` when it failed). The cell is `undefined` after every call. |
| Walker.LeavesSound | lib/reqTemplate.js:102-120 | Every enumerated leaf sits at its path, through containers only, and below arrays the path has only array indices |
| Walker.LeavesComplete | lib/reqTemplate.js:102-120 | Every leaf path of the tree is enumerated |
| Walker.LeafPaths | lib/reqTemplate.js:114-117 | A path is enumerated if and only if it is a leaf path of the tree |
| Walker.LeavesDiverge | lib/reqTemplate.js:115-116 | The paths of any two enumerated leaves part ways |
| Walker.Walk | lib/reqTemplate.js:102-120 | The walk succeeds exactly when every container is non-empty and every `{...}` string is valid. It then yields one resolver per leaf in depth-first key order, each with the setter planned for the leaf's path and the leaf's source. An `Invalid template` error names a rejected leaf. An empty-composite error means the tree holds an empty container. |
| Walker.WalkLeaf | lib/reqTemplate.js:103-110 | A non-object leaf compiles unless it is a `{...}` string with an invalid path. It yields one resolver: a placeholder for a `{...}` string, else a constant. |
| Walker.WalkFrom | lib/reqTemplate.js:114-117 | The entries from index `i` on succeed exactly when each of them compiles. The result concatenates their resolvers in key order, and an error comes from one of those entries. |
| RequestTemplate.CompilePart | lib/reqTemplate.js:135-155 | One top-level part. It fails exactly when it is a `uri` placeholder with an invalid path, or a truthy non-`uri`/`method` part that does not compile. Otherwise it registers one resolver per template of the part. `uri` gets a placeholder or a URI template, `method` a constant, and a falsy other part nothing. |
| RequestTemplate.CompileFrom | lib/reqTemplate.js:134-156 | The parts from index `i` on compile exactly when each of them does. Their resolvers are registered in top-level key order. |
| RequestTemplate.Compile | lib/reqTemplate.js:131-157 | `new Template(spec)` succeeds exactly when every part compiles. It then holds one resolver per template of the spec, in registration order. Their paths are pairwise apart, each is planned from the spec, and only `method` itself lies below `method`. |
| RequestTemplate.TemplateLeavesShape | lib/reqTemplate.js:134-155 | Every template path starts with a top-level key of the spec and can be planned from the spec. Any two template paths part ways. |
| RequestTemplate.RegisteredCoherent | lib/reqTemplate.js:131-157 | Resolvers registered for pairwise-apart, plannable templates carry those templates' paths and form a coherent list |
| RequestTemplate.SeedReady | lib/reqTemplate.js:166 | Every registered path can be written into the seed `{ method: ... }` |
| RequestTemplate.Produce | lib/reqTemplate.js:75-80 | The value a resolver hands to its setter. A constant yields itself (lines 109, 150-152). A compiled placeholder yields the lookup of its access path in the context (lines 75-80). A URI template yields `expand` of the template over `context.request.params` (lines 144-146). |
| RequestTemplate.Seed | lib/reqTemplate.js:166 | The new request starts as an object whose only key is `method`, holding `context.request.method` |
| RequestTemplate.Run | lib/reqTemplate.js:167-169 | Running the resolvers keeps the output an object |
| RequestTemplate.Eval | lib/reqTemplate.js:165-171 | `eval` returns an object |
| RequestTemplate.RunFrame | lib/reqTemplate.js:167-169 | A path reads the same after the run as before when every resolver either parts ways with it or produces `undefined` |
| RequestTemplate.StepShape | lib/reqTemplate.js:29-33 | One setter, at a non-empty prefix `q` that its path parts ways with or runs through. If `q` held nothing or a container of the spec's kind there, it still does, and a container stays a container. If the value is defined and the path runs through `q`, `q` then holds a container of the spec's kind. |
| RequestTemplate.RunKeepsShape | lib/reqTemplate.js:167-169 | Over the whole run, a prefix that every resolver parts ways with or runs through keeps holding nothing or a container of the spec's kind, and a container there stays one |
| RequestTemplate.RunShape | lib/reqTemplate.js:167-169 | A resolver with a defined value whose path runs through `q` leaves a container of the spec's kind at `q` after the run |
| RequestTemplate.RunPlaces | lib/reqTemplate.js:167-169 | After the run, each resolver's path holds its value. If the value was `undefined`, the path holds what it held before the run. |
| RequestTemplate.EvalPlaces | lib/reqTemplate.js:165-171 | After `eval`, every template's path holds the template's value when it resolved. An unresolved template leaves `undefined` there, except at `method`, which keeps `context.request.method`. |
| RequestTemplate.EvalNothingElse | lib/reqTemplate.js:165-171 | A path that does not go through `method` reads `undefined` in the result when every template either parts ways with it or resolved to `undefined`. So a container whose templates all went unresolved is absent, as are keys and fields the templates do not write. |
| RequestTemplate.EvalShape | lib/reqTemplate.js:165-171 | Every proper prefix of a template's path holds, after `eval`, either nothing or a container of the kind (array or object) the spec has at that prefix. Once the template resolved, it holds such a container. |
| RequestTemplate.EvalOnlySpecKeys | lib/reqTemplate.js:165-171 | The result has no top-level key other than `method` and the spec's own keys |
| RequestTemplate.EvalMethod | lib/reqTemplate.js:148-171 | `method` in the result is the spec's `method` when the spec has one that is not `undefined`, and `context.request.method` otherwise |

## Left out

- The expression compiler's internals (lines 65-74). A compiled placeholder evaluates to the lookup of its access path, with every TypeError read as `undefined`. Each call emits a single chunk, so the `+=` concatenation never runs. `Placeholder.Emit` models the concatenation, but only for one chunk per call.
- URI template expansion and the `URI` constructor (lines 143-145). Expansion is the parameter `expand`, and errors the constructor may throw on a malformed template are not modelled.
- Generating the setter's source text and `new Function` (lines 28-37). The model interprets the plan instead. `[i]` and `["i"]` references are equivalent for canonical index keys (`JsValues.IndexKeyRoundTrip`), so a step records only its key and initializer.
- `rbUtil` (line 4) is never used.
- Property reads other than own data properties: `length`, string indexing and prototype members all read as `undefined`. Objects other than plain objects and arrays (dates, functions) are not values here, so `instanceof Object` is `IsComposite`.
- Numbers are integers. Floating point, `NaN` and their string forms are not modelled.
- Keys containing `.`, `"`, `\` or a line break, at the top level of the spec or inside a walked part (`RequestTemplate.SafeSpec` is a precondition). Such a key either changes what `split('.')` cuts or breaks the generated string literal. Keys inside the values of `uri` and `method` are unrestricted, since those values are stored whole.
- Keys named after a member every object inherits from `Object.prototype`: `__proto__`, `constructor`, `toString`, `toLocaleString`, `valueOf`, `hasOwnProperty`, `isPrototypeOf`, `propertyIsEnumerable`, `__defineGetter__`, `__defineSetter__`, `__lookupGetter__` and `__lookupSetter__` (`Walker.InheritedNames`, excluded by `Walker.SafeKey` and so by `RequestTemplate.SafeSpec`). In JavaScript `obj[key] || {}` at lib/reqTemplate.js:31 reads the inherited member, which is truthy, so the setter keeps it and its next write lands on that member (on `Object.prototype` itself for `__proto__`, on the shared `Object` function for `constructor`, on the shared built-in functions for the rest) rather than in the new request. The model has no prototype chain, so it cannot state this. Such a key at the end of a path would be written as an own property and is harmless, but the precondition excludes it everywhere.
- Placeholder.CompilePlaceholder: the access path matches the expression handed to the expression compiler only when every segment without a hyphen is an identifier, the part name included. For a relative placeholder under a part such as `a b`, `0` or `it's`, the text `m.request.a b.x` is not a property access, and what the expression compiler makes of it is not modelled.
- Specs that are not objects (`Compile` requires an object). `Object.keys` of a primitive spec is not modelled.
- Concurrency. The shared result cell is only a hazard when evaluations interleave, and the model is sequential.
- Setter.SetAt: along a plan that is not reachable (a truthy primitive met on the way, or a non-index key below an array), the contract states only the frame and the outer kind; the result is otherwise unspecified and differs from JavaScript, where an assignment into a truthy string, number or boolean is silently dropped, and any statement after it reads `undefined` there and throws a TypeError; a non-index key below an array stores a named property on it. `RequestTemplate.ReadyAfterFirst` shows that evaluation never reaches such a plan.
- JsValues.PutKey: arrays carry no named properties. In JavaScript `arr[k] = v` with a non-index key `k` stores a named property; the model leaves the array unchanged. Compiled templates only put index keys below arrays (`Setter.PlanChained`), so evaluation never does this.
- Walker.Walk: the contract names the kind of error and a leaf that causes it, but not which error comes first when several leaves are at fault.
- RequestTemplate.Compile: the contract says when construction fails, but not which error it reports.
- RequestTemplate.CompileFrom: same as `Compile`; the error returned is not specified.
- RequestTemplate.Eval: its own contract says only that the result is an object. What the result holds at template paths, at the containers on the way to them, and elsewhere is stated by `EvalPlaces`, `EvalShape`, `EvalNothingElse`, `EvalOnlySpecKeys` and `EvalMethod`. The order of the result's keys is not stated.
- RequestTemplate.Eval: reading `context.request.method` (line 166) throws a TypeError when `context` or `context.request` is `undefined` or `null`. The model requires both to be present instead of modelling that throw.
- An array hole and an explicit `undefined` element are the same value here.
- Registration keeps paths pairwise apart, so a later write never overwrites an earlier resolver's path. The only override is `method` over the seed, which `EvalMethod` states.

=== FILE: paths.dfy ===
/** Dotted paths such as `body.a.b`: the walker builds them by appending
    `'.' + key`, and the setter takes them apart with `split('.')`. */
module Paths {
  import opened Results

  /** The position of the last '.' in `s`. */
  function LastDot(s: string): (r: Option<nat>)
    ensures r.None? ==> '.' !in s
    ensures r.Some? ==> r.value < |s| && s[r.value] == '.' && '.' !in s[r.value + 1..]
    decreases |s|
  {
    if |s| == 0 then None
    else if s[|s| - 1] == '.' then Some(|s| - 1)
    else
      var r := LastDot(s[..|s| - 1]);
      assert r.Some? ==> s[r.value + 1..] == s[..|s| - 1][r.value + 1..] + [s[|s| - 1]];
      assert r.None? ==> s == s[..|s| - 1] + [s[|s| - 1]];
      r
  }

  /** `s.split('.')`: never empty, and no piece contains a dot. */
  function Split(s: string): (r: seq<string>)
    ensures |r| >= 1
    ensures forall i :: 0 <= i < |r| ==> '.' !in r[i]
    decreases |s|
  {
    match LastDot(s)
    case None => [s]
    case Some(i) => Split(s[..i]) + [s[i + 1..]]
  }

  /** `segs.join('.')`. */
  function Join(segs: seq<string>): string
    requires |segs| >= 1
    decreases |segs|
  {
    if |segs| == 1 then segs[0] else Join(segs[..|segs| - 1]) + "." + segs[|segs| - 1]
  }

  /** Appending `'.' + key` to a path adds exactly one piece, provided the key
      itself has no dot. */
  lemma {:induction false} SplitExtend(p: string, k: string)
    requires '.' !in k
    ensures Split(p + "." + k) == Split(p) + [k]
  {
    var s := p + "." + k;
    assert s[|p|] == '.' && s[|p| + 1..] == k;
    assert s[..|p|] == p;
  }

  /** A path without dots is a single piece. */
  lemma SplitPlain(s: string)
    requires '.' !in s
    ensures Split(s) == [s]
  {
  }

  /** Splitting a joined path gives back its pieces. */
  lemma {:induction false} SplitJoin(segs: seq<string>)
    requires |segs| >= 1
    requires forall i :: 0 <= i < |segs| ==> '.' !in segs[i]
    ensures Split(Join(segs)) == segs
    decreases |segs|
  {
    if |segs| > 1 {
      var init := segs[..|segs| - 1];
      SplitJoin(init);
      SplitExtend(Join(init), segs[|segs| - 1]);
    }
  }

  /** Joining the pieces of a split gives back the string. */
  lemma {:induction false} JoinSplit(s: string)
    ensures Join(Split(s)) == s
    decreases |s|
  {
    match LastDot(s)
    case None =>
    case Some(i) =>
      JoinSplit(s[..i]);
      var r := Split(s);
      assert r[..|r| - 1] == Split(s[..i]);
      assert s == s[..i] + "." + s[i + 1..];
  }

  /** Two paths that part ways: at some position they hold different keys,
      after agreeing on everything before it. Neither is a prefix of the other. */
  predicate Diverge(p: seq<string>, q: seq<string>)
    decreases |p|
  {
    |p| > 0 && |q| > 0 && (p[0] != q[0] || Diverge(p[1..], q[1..]))
  }

  lemma {:induction false} DivergeSymmetric(p: seq<string>, q: seq<string>)
    requires Diverge(p, q)
    ensures Diverge(q, p)
    decreases |p|
  {
    if p[0] == q[0] {
      DivergeSymmetric(p[1..], q[1..]);
    }
  }

  /** Path `p` runs through `q`: `q` is a proper prefix of `p`. */
  predicate Through(p: seq<string>, q: seq<string>) {
    |q| < |p| && p[..|q|] == q
  }

  lemma {:induction false} ThroughNotDiverge(p: seq<string>, q: seq<string>)
    requires Through(p, q)
    ensures !Diverge(p, q)
    decreases |q|
  {
    if |q| > 0 {
      assert p[0] == q[0];
      assert p[1..][..|q| - 1] == q[1..];
      ThroughNotDiverge(p[1..], q[1..]);
    }
  }

  /** A path that parts ways with `p` either parts ways with a non-empty
      prefix of `p` as well, or runs through that prefix. */
  lemma {:induction false} DivergeFromPrefix(r: seq<string>, p: seq<string>, i: nat)
    requires Diverge(r, p) && 0 < i <= |p|
    ensures Diverge(r, p[..i]) || Through(r, p[..i])
    decreases |r|
  {
    var q := p[..i];
    assert q[0] == p[0];
    if r[0] == q[0] && i > 1 {
      assert q[1..] == p[1..][..i - 1];
      DivergeFromPrefix(r[1..], p[1..], i - 1);
      if !Diverge(r[1..], q[1..]) {
        assert r[..i] == [r[0]] + r[1..][..i - 1];
        assert q == [q[0]] + q[1..];
      }
    } else if r[0] == q[0] {
      assert r[..1] == [r[0]] && q == [q[0]];
    }
  }

  /** Prefixing both paths with the same keys keeps them apart. */
  lemma {:induction false} DivergeUnderPrefix(pre: seq<string>, p: seq<string>, q: seq<string>)
    requires Diverge(p, q)
    ensures Diverge(pre + p, pre + q)
    decreases |pre|
  {
    if |pre| == 0 {
      assert pre + p == p && pre + q == q;
    } else {
      assert (pre + p)[0] == (pre + q)[0];
      assert (pre + p)[1..] == pre[1..] + p && (pre + q)[1..] == pre[1..] + q;
      DivergeUnderPrefix(pre[1..], p, q);
    }
  }
}

=== FILE: placeholder.dfy ===
/** The placeholder translator (`compileTemplate`): it takes `{path}`, checks
    the path against the placeholder grammar, and rewrites it into an access
    expression of the expression language (`rm.a['x-y']` or
    `m.request.body.a`). Evaluating that expression against a context is
    modelled as a property lookup along the access path, where any TypeError
    on the way reads as `undefined`. */
module Placeholder {
  import opened Results
  import opened JsValues
  import opened Paths

  // ---------------------------------------------------------------------------
  // Token shapes and the path grammar

  /** `/^\{[^}]+}$/`, or `/^\{[^\{}]+}$/` when `allowOpen` is false (the test
      applied to `uri`). */
  predicate Braced(s: string, allowOpen: bool) {
    && |s| >= 3
    && s[0] == '{'
    && s[|s| - 1] == '}'
    && forall i :: 1 <= i < |s| - 1 ==> s[i] != '}' && (allowOpen || s[i] != '{')
  }

  /** The capture group of `/^\{([^}]+)}$/`. */
  function Inner(s: string): (t: string)
    requires Braced(s, true)
    ensures |t| > 0
  {
    s[1..|s| - 1]
  }

  predicate IsLetter(c: char) {
    'a' <= c <= 'z' || 'A' <= c <= 'Z'
  }

  predicate IsSegmentChar(c: char) {
    IsLetter(c) || IsDigit(c) || c == '-' || c == '_'
  }

  /** `[a-zA-Z][a-zA-Z0-9-_]*` */
  predicate IsSegment(s: string) {
    |s| > 0 && IsLetter(s[0]) && forall i :: 1 <= i < |s| ==> IsSegmentChar(s[i])
  }

  predicate HasRootPrefix(t: string) {
    |t| >= 2 && t[0] == '$' && t[1] == '.'
  }

  /** The grammar `^(\$\.)?SEG(\.SEG)*$`. A path starting with `$.` can only
      match with the optional group taken, since a segment starts with a letter. */
  predicate ValidPath(t: string) {
    forall i :: 0 <= i < |Split(PathBody(t))| ==> IsSegment(Split(PathBody(t))[i])
  }

  /** The path without its `$.` root marker. */
  function PathBody(t: string): string {
    if HasRootPrefix(t) then t[2..] else t
  }

  // ---------------------------------------------------------------------------
  // The rewrite into the expression language

  /** `rm`: the root of the context; `m`: the current model, which is also the
      context when a placeholder is evaluated on its own. */
  datatype Root = ContextRoot | PartScope

  /** A translated placeholder: its root symbol and the property path from the
      context that it reads. */
  datatype Access = Access(root: Root, path: seq<string>)

  function RootName(r: Root): string {
    match r
    case ContextRoot => "rm"
    case PartScope => "m"
  }

  /** `paren.replace(/'/g, "\\'")` */
  function EscapeQuotes(s: string): string {
    if |s| == 0 then ""
    else (if s[0] == '\'' then "\\'" else [s[0]]) + EscapeQuotes(s[1..])
  }

  /** The length of the run before the next '.' (`[^.]*`). */
  function RunLength(s: string): (n: nat)
    ensures n <= |s| && '.' !in s[..n] && (n < |s| ==> s[n] == '.')
  {
    if |s| == 0 || s[0] == '.' then 0
    else
      var n := 1 + RunLength(s[1..]);
      assert s[..n] == [s[0]] + s[1..][..n - 1];
      n
  }

  /** `s.replace(/\.([^.]*(?:-[^.]*)+)/g, ...)`: at each '.', the regular
      expression matches exactly when the run of non-dots after it holds a
      hyphen; the match then spans that whole run and becomes `['run']`.
      Elsewhere the scan moves on one character. */
  function HyphenRewrite(s: string): string
    decreases |s|, 1
  {
    if |s| == 0 then ""
    else if s[0] == '.' then RewriteAtDot(s)
    else [s[0]] + HyphenRewrite(s[1..])
  }

  /** The step at a '.': bracket the whole following run, or copy the dot. */
  function RewriteAtDot(s: string): string
    requires |s| > 0 && s[0] == '.'
    decreases |s|, 0
  {
    var n := RunLength(s[1..]);
    var run := s[1..1 + n];
    if '-' in run then "['" + EscapeQuotes(run) + "']" + HyphenRewrite(s[1 + n..])
    else "." + HyphenRewrite(s[1..])
  }

  /** Lines 55-62 of the source: root the path, then bracket every hyphenated
      segment. */
  function Translate(t: string, part: string): string
    requires |t| > 0
  {
    var rooted := if t[0] == '$' then "rm" + t[1..] else "m.request." + part + "." + t;
    HyphenRewrite(rooted)
  }

  /** How one segment is addressed: dot access, or quoted-bracket access when
      it holds a hyphen. */
  function RenderSegment(seg: string): string {
    if '-' in seg then "['" + EscapeQuotes(seg) + "']" else "." + seg
  }

  function RenderSegments(segs: seq<string>): string {
    if |segs| == 0 then "" else RenderSegment(segs[0]) + RenderSegments(segs[1..])
  }

  /** The expression an access denotes, built segment by segment. */
  function Render(a: Access): string {
    RootName(a.root) + RenderSegments(a.path)
  }

  /** The access a valid path denotes: from the context root for `$.`, otherwise
      under `request.<part>` of the context. */
  function AccessOf(t: string, part: string): Access
    requires ValidPath(t)
  {
    if HasRootPrefix(t) then Access(ContextRoot, Split(PathBody(t)))
    else Access(PartScope, ["request", part] + Split(PathBody(t)))
  }

  /** Compiles the text of a `{...}` token: `Invalid template` when the path
      fails the grammar, otherwise the access whose rendering is exactly the
      expression the source hands to the expression compiler. */
  function CompilePlaceholder(token: string, part: string): (r: Result<Access, string>)
    requires Braced(token, true)
    ensures r.Err? <==> !ValidPath(Inner(token))
    ensures r.Err? ==> r.error == "Invalid template " + Inner(token)
    ensures r.Ok? && '.' !in part ==> Render(r.value) == Translate(Inner(token), part)
    ensures r.Ok? ==> (r.value.root == ContextRoot <==> Inner(token)[0] == '$')
    ensures r.Ok? ==> |r.value.path| >= 1
    ensures r.Ok? ==>
              r.value.path == (if Inner(token)[0] == '$' then [] else ["request", part]) + Split(PathBody(Inner(token)))
  {
    var t := Inner(token);
    if !ValidPath(t) then Err("Invalid template " + t)
    else
      RootedIffDollar(t);
      TranslateRenders(t, part);
      Ok(AccessOf(t, part))
  }

  // ---------------------------------------------------------------------------
  // Why the rewrite means what it says

  lemma {:induction false} JoinFront(segs: seq<string>)
    requires |segs| >= 2
    ensures Join(segs) == segs[0] + "." + Join(segs[1..])
    decreases |segs|
  {
    if |segs| > 2 {
      var init := segs[..|segs| - 1];
      JoinFront(init);
      assert init[1..] == segs[1..][..|segs[1..]| - 1];
    }
  }

  lemma {:induction false} JoinHead(segs: seq<string>)
    requires |segs| >= 1 && |segs[0]| > 0
    ensures |Join(segs)| > 0 && Join(segs)[0] == segs[0][0]
  {
    if |segs| >= 2 {
      JoinFront(segs);
    }
  }

  /** In a valid path, `t[0] === '$'` holds exactly for the `$.` form. */
  lemma {:induction false} RootedIffDollar(t: string)
    requires ValidPath(t) && |t| > 0
    ensures t[0] == '$' <==> HasRootPrefix(t)
  {
    if !HasRootPrefix(t) {
      var segs := Split(t);
      assert PathBody(t) == t;
      assert IsSegment(segs[0]);
      JoinSplit(t);
      JoinHead(segs);
    }
  }

  /** Characters before the first '.' are copied unchanged. */
  lemma {:induction false} RewriteCopies(x: string, y: string)
    requires '.' !in x
    ensures HyphenRewrite(x + y) == x + HyphenRewrite(y)
    decreases |x|
  {
    if |x| == 0 {
      assert x + y == y;
    } else {
      assert (x + y)[0] == x[0] && (x + y)[1..] == x[1..] + y;
      RewriteCopies(x[1..], y);
    }
  }

  lemma {:induction false} RunLengthOfPlain(x: string, z: string)
    requires '.' !in x
    requires |z| == 0 || z[0] == '.'
    ensures RunLength(x + z) == |x|
    decreases |x|
  {
    if |x| == 0 {
      assert x + z == z;
    } else {
      assert (x + z)[0] == x[0] && (x + z)[1..] == x[1..] + z;
      RunLengthOfPlain(x[1..], z);
    }
  }

  /** One dotted segment followed by the rest of the path. */
  lemma {:induction false} RewriteSegment(a: string, z: string)
    requires '.' !in a
    requires |z| == 0 || z[0] == '.'
    ensures HyphenRewrite("." + a + z) == RenderSegment(a) + HyphenRewrite(z)
  {
    var s := "." + a + z;
    RewriteSegmentAt(s, a, z);
  }

  lemma {:induction false} RewriteSegmentAt(s: string, a: string, z: string)
    requires s == "." + a + z
    requires '.' !in a
    requires |z| == 0 || z[0] == '.'
    ensures HyphenRewrite(s) == RenderSegment(a) + HyphenRewrite(z)
  {
    assert s[0] == '.';
    assert s[1..] == a + z;
    RunLengthOfPlain(a, z);
    assert s[1..1 + |a|] == a;
    assert s[1 + |a|..] == z;
    assert HyphenRewrite(s) == RewriteAtDot(s);
    if '-' !in a {
      RewriteCopies(a, z);
    }
  }

  lemma {:induction false} RewriteJoined(segs: seq<string>)
    requires |segs| >= 1
    requires forall i :: 0 <= i < |segs| ==> '.' !in segs[i]
    ensures HyphenRewrite("." + Join(segs)) == RenderSegments(segs)
    decreases |segs|
  {
    if |segs| == 1 {
      RewriteSegment(segs[0], "");
      assert "." + Join(segs) == "." + segs[0] + "";
    } else {
      JoinFront(segs);
      var z := "." + Join(segs[1..]);
      assert "." + Join(segs) == "." + segs[0] + z;
      RewriteSegment(segs[0], z);
      RewriteJoined(segs[1..]);
    }
  }

  /** The string rewrite of the source equals the segment-by-segment rendering
      of the access: `$.` paths start at `rm`, others under `m.request.<part>`,
      and exactly the hyphenated segments use quoted-bracket access. */
  lemma {:induction false} TranslateRenders(t: string, part: string)
    requires ValidPath(t) && |t| > 0
    ensures '.' !in part ==> Translate(t, part) == Render(AccessOf(t, part))
  {
    RootedIffDollar(t);
    if '.' in part {
    } else if HasRootPrefix(t) {
      TranslateRooted(t);
    } else {
      assert PathBody(t) == t;
      TranslateScoped(t, part);
    }
  }

  lemma {:induction false} TranslateRooted(t: string)
    requires HasRootPrefix(t)
    ensures HyphenRewrite("rm" + t[1..]) == "rm" + RenderSegments(Split(t[2..]))
  {
    var body := t[2..];
    JoinSplit(body);
    assert t[1..] == "." + Join(Split(body));
    RewriteCopies("rm", t[1..]);
    RewriteJoined(Split(body));
  }

  lemma {:induction false} TranslateScoped(t: string, part: string)
    requires '.' !in part
    ensures HyphenRewrite("m.request." + part + "." + t) == "m" + RenderSegments(["request", part] + Split(t))
  {
    var tail := "." + t;
    var mid := "." + part + tail;
    var segs := ["request", part] + Split(t);
    calc {
      HyphenRewrite("m.request." + part + "." + t);
      { assert "m.request." + part + "." + t == "m" + ("." + "request" + mid); }
      HyphenRewrite("m" + ("." + "request" + mid));
      { RewriteCopies("m", "." + "request" + mid); }
      "m" + HyphenRewrite("." + "request" + mid);
      { RewriteSegment("request", mid); }
      "m" + (RenderSegment("request") + HyphenRewrite(mid));
      { RewriteSegment(part, tail); }
      "m" + (RenderSegment("request") + (RenderSegment(part) + HyphenRewrite(tail)));
      { JoinSplit(t); assert tail == "." + Join(Split(t)); RewriteJoined(Split(t)); }
      "m" + (RenderSegment("request") + (RenderSegment(part) + RenderSegments(Split(t))));
      { assert segs[1..] == [part] + Split(t); assert segs[1..][1..] == Split(t); }
      "m" + RenderSegments(segs);
    }
  }

  // ---------------------------------------------------------------------------
  // The result cell shared by one compiled placeholder

  /** JavaScript `String(v)` for the values modelled here. */
  function ToJsString(v: Value): string
    decreases v
  {
    match v
    case Undefined => "undefined"
    case Null => "null"
    case Bool(b) => if b then "true" else "false"
    case Num(n) => if n < 0 then "-" + IndexKey(-n) else IndexKey(n)
    case Str(s) => s
    case Arr(items) => JoinItems(v, 0)
    case Obj(_) => "[object Object]"
  }

  /** `Array.prototype.join(',')`, where `null` and `undefined` items print empty. */
  function JoinItems(v: Value, i: nat): string
    requires v.Arr? && i <= |v.items|
    decreases v, |v.items| - i
  {
    if i == |v.items| then ""
    else
      var item := v.items[i];
      var text := if Nullish(item) then "" else ToJsString(item);
      (if i == 0 then "" else ",") + text + JoinItems(v, i + 1)
  }

  /** The `cb` the source installs: the first chunk is stored, later ones are
      appended as strings. */
  function Emit(res: Value, bit: Value): Value {
    if res.Undefined? then bit else Str(ToJsString(res) + ToJsString(bit))
  }

  /** One call of the resolver closure: evaluate into the cell (one chunk),
      take the value out, and reset the cell to `undefined`. Yields the value
      handed to the setter and the cell left behind. */
  function ResolveOnce(cell: Value, a: Access, ctx: Value): (Value, Value) {
    var res := Emit(cell, Lookup(ctx, a.path));
    (res, Undefined)
  }

  /** Repeated evaluations of the same compiled placeholder. */
  function ResolveSeries(cell: Value, a: Access, ctxs: seq<Value>): (seq<Value>, Value)
    decreases |ctxs|
  {
    if |ctxs| == 0 then ([], cell)
    else
      var (v, cell') := ResolveOnce(cell, a, ctxs[0]);
      var (vs, last) := ResolveSeries(cell', a, ctxs[1..]);
      ([v] + vs, last)
  }

  /** Because the cell is reset after every call, each evaluation yields
      exactly its own lookup result, and the cell ends empty again: nothing
      leaks from one evaluation into the next. */
  lemma {:induction false} CellNeverLeaks(a: Access, ctxs: seq<Value>)
    ensures |ResolveSeries(Undefined, a, ctxs).0| == |ctxs|
    ensures forall i :: 0 <= i < |ctxs| ==> ResolveSeries(Undefined, a, ctxs).0[i] == Lookup(ctxs[i], a.path)
    ensures ResolveSeries(Undefined, a, ctxs).1 == Undefined
    decreases |ctxs|
  {
    if |ctxs| > 0 {
      CellNeverLeaks(a, ctxs[1..]);
      var rest := ResolveSeries(Undefined, a, ctxs[1..]).0;
      assert ResolveSeries(Undefined, a, ctxs).0 == [Lookup(ctxs[0], a.path)] + rest;
    }
  }
}

=== FILE: results.dfy ===
/** Failure-compatible wrappers used across the model. */
module Results {

  /** A value that may be absent. */
  datatype Option<+T> = None | Some(value: T)

  /** The outcome of a compile step: a value, or the error the source would throw. */
  datatype Result<+T, +E> = Ok(value: T) | Err(error: E) {

    predicate IsFailure() {
      Err?
    }

    function PropagateFailure<U>(): Result<U, E>
      requires Err?
    {
      Err(error)
    }

    function Extract(): T
      requires Ok?
    {
      value
    }
  }
}

=== FILE: setter.dfy ===
/** The path setter (`_setAtPath`). The source generates JavaScript such as

      if (value !== undefined) { obj["body"] = obj["body"] || {}; obj["body"]["a"] = value; }

    from a dotted path and the template spec. Here the generated code is an
    interpreted walk over a pre-parsed plan: one step per path segment, holding
    the segment and the initializer (`[]` or `{}`) for the container under it. */
module Setter {
  import opened JsValues
  import opened Paths

  datatype Kind = ArrayKind | ObjectKind

  /** One path segment and the container to create beneath it when missing. */
  datatype Step = Step(key: string, init: Kind)

  function KindOf(v: Value): Kind {
    if v.Arr? then ArrayKind else ObjectKind
  }

  function Empty(k: Kind): (r: Value)
    ensures IsComposite(r) && KindOf(r) == k
  {
    match k
    case ArrayKind => Arr([])
    case ObjectKind => Obj([])
  }

  /** The path a plan writes along: the key of every step, in order. */
  function StepKeys(steps: seq<Step>): (ks: seq<string>)
    ensures |ks| == |steps|
    ensures forall i :: 0 <= i < |steps| ==> ks[i] == steps[i].key
  {
    seq(|steps|, i requires 0 <= i < |steps| => steps[i].key)
  }

  /** The planning loop reads `subspec[segment]` for every segment, which throws
      once `subspec` is `undefined` or `null`. */
  predicate Traversable(spec: Value, path: seq<string>)
    decreases |path|
  {
    |path| == 0 || (!Nullish(spec) && Traversable(GetKey(spec, path[0]), path[1..]))
  }

  /** One more segment can be read below a non-nullish value. */
  lemma {:induction false} TraversableSnoc(spec: Value, path: seq<string>, k: string)
    requires Traversable(spec, path) && !Nullish(Lookup(spec, path))
    ensures Traversable(spec, path + [k])
    decreases |path|
  {
    if |path| == 0 {
      assert path + [k] == [k];
    } else {
      assert (path + [k])[1..] == path[1..] + [k];
      TraversableSnoc(GetKey(spec, path[0]), path[1..], k);
    }
  }

  /** The planning loop of `_setAtPath`: segment `i` gets the initializer `[]`
      exactly when the spec holds an array at the prefix ending in segment `i`. */
  function Plan(spec: Value, path: seq<string>): (steps: seq<Step>)
    requires Traversable(spec, path)
    ensures StepKeys(steps) == path
    ensures forall i :: 0 <= i < |path| ==> steps[i].init == KindOf(Lookup(spec, path[..i + 1]))
    decreases |path|
  {
    if |path| == 0 then []
    else
      var sub := GetKey(spec, path[0]);
      var rest := Plan(sub, path[1..]);
      var steps := [Step(path[0], KindOf(sub))] + rest;
      PrefixLookups(spec, path);
      assert StepKeys(steps)[1..] == StepKeys(rest);
      steps
  }

  /** Reading a prefix of a path is reading the first key, then a prefix of
      the rest. */
  lemma PrefixLookups(spec: Value, path: seq<string>)
    requires |path| > 0
    ensures Lookup(spec, path[..1]) == GetKey(spec, path[0])
    ensures forall i :: 0 < i < |path| ==> Lookup(spec, path[..i + 1]) == Lookup(GetKey(spec, path[0]), path[1..][..i])
  {
    assert Lookup(spec, path[..1]) == Lookup(GetKey(spec, path[0]), []);
    forall i | 0 < i < |path|
      ensures Lookup(spec, path[..i + 1]) == Lookup(GetKey(spec, path[0]), path[1..][..i])
    {
      assert path[..i + 1][1..] == path[1..][..i];
    }
  }

  /** `obj[ref] || initializer`: an existing truthy value is kept, anything falsy
      is replaced by a fresh container of the planned kind. */
  function Intermediate(node: Value, s: Step): Value {
    var cur := GetKey(node, s.key);
    if Truthy(cur) then cur else Empty(s.init)
  }

  /** The generated statements for a defined value: initialise every
      intermediate along the path, then assign at the last segment. */
  function Write(node: Value, steps: seq<Step>, v: Value): Value
    requires |steps| >= 1
    decreases |steps|
  {
    if |steps| == 1 then PutKey(node, steps[0].key, v)
    else PutKey(node, steps[0].key, Write(Intermediate(node, steps[0]), steps[1..], v))
  }

  /** Every container met on the way (existing or freshly initialised) stores
      the next segment as a property that can be read back. */
  predicate Reachable(node: Value, steps: seq<Step>)
    decreases |steps|
  {
    && |steps| >= 1
    && Accepts(node, steps[0].key)
    && (|steps| > 1 ==> Reachable(Intermediate(node, steps[0]), steps[1..]))
  }

  /** The setter returned by `_setAtPath`. With no steps at all the generated
      body would only rebind its own `obj` parameter, so nothing changes; a
      split path always has at least one segment. */
  function SetAt(obj: Value, steps: seq<Step>, value: Value): (r: Value)
    ensures value.Undefined? || |steps| == 0 ==> r == obj
    ensures !value.Undefined? && Reachable(obj, steps) ==> Lookup(r, StepKeys(steps)) == value
    ensures forall q :: Diverge(StepKeys(steps), q) ==> Lookup(r, q) == Lookup(obj, q)
    ensures !value.Undefined? && Reachable(obj, steps) ==> forall i :: 0 < i < |steps| ==>
      && IsComposite(Lookup(r, StepKeys(steps)[..i]))
      && KindOf(Lookup(r, StepKeys(steps)[..i])) ==
           (if Truthy(Lookup(obj, StepKeys(steps)[..i])) then KindOf(Lookup(obj, StepKeys(steps)[..i]))
            else steps[i - 1].init)
    ensures r.Obj? == obj.Obj? && r.Arr? == obj.Arr?
  {
    if value.Undefined? || |steps| == 0 then obj
    else
      WriteFacts(obj, steps, value);
      Write(obj, steps, value)
  }

  lemma WriteFacts(obj: Value, steps: seq<Step>, value: Value)
    requires |steps| >= 1
    ensures Reachable(obj, steps) ==> Lookup(Write(obj, steps, value), StepKeys(steps)) == value
    ensures forall q :: Diverge(StepKeys(steps), q) ==> Lookup(Write(obj, steps, value), q) == Lookup(obj, q)
    ensures Reachable(obj, steps) ==> forall i :: 0 < i < |steps| ==>
      && IsComposite(Lookup(Write(obj, steps, value), StepKeys(steps)[..i]))
      && KindOf(Lookup(Write(obj, steps, value), StepKeys(steps)[..i])) ==
           (if Truthy(Lookup(obj, StepKeys(steps)[..i])) then KindOf(Lookup(obj, StepKeys(steps)[..i]))
            else steps[i - 1].init)
  {
    if Reachable(obj, steps) {
      WriteReaches(obj, steps, value);
      forall i | 0 < i < |steps|
        ensures IsComposite(Lookup(Write(obj, steps, value), StepKeys(steps)[..i]))
        ensures KindOf(Lookup(Write(obj, steps, value), StepKeys(steps)[..i])) ==
          (if Truthy(Lookup(obj, StepKeys(steps)[..i])) then KindOf(Lookup(obj, StepKeys(steps)[..i]))
           else steps[i - 1].init)
      {
        WriteShape(obj, steps, value, i);
      }
    }
    forall q | Diverge(StepKeys(steps), q)
      ensures Lookup(Write(obj, steps, value), q) == Lookup(obj, q)
    {
      WriteFrame(obj, steps, value, q);
    }
  }

  // ---------------------------------------------------------------------------
  // Properties of the generated statements

  lemma StepKeysTail(steps: seq<Step>)
    requires |steps| >= 1
    ensures StepKeys(steps)[0] == steps[0].key
    ensures StepKeys(steps)[1..] == StepKeys(steps[1..])
  {
  }

  /** A prefix of a plan's path is the first key followed by a prefix of the
      rest of the plan's path. */
  lemma StepKeysPrefix(steps: seq<Step>, i: nat)
    requires 1 <= i <= |steps|
    ensures StepKeys(steps)[..i] == [steps[0].key] + StepKeys(steps[1..])[..i - 1]
  {
  }

  /** The value ends up at the full path. */
  lemma {:induction false} WriteReaches(node: Value, steps: seq<Step>, v: Value)
    requires Reachable(node, steps)
    ensures Lookup(Write(node, steps, v), StepKeys(steps)) == v
    decreases |steps|
  {
    StepKeysTail(steps);
    if |steps| > 1 {
      WriteReaches(Intermediate(node, steps[0]), steps[1..], v);
    }
  }

  /** Paths that part ways with the written path read as before. */
  lemma {:induction false} WriteFrame(node: Value, steps: seq<Step>, v: Value, q: seq<string>)
    requires |steps| >= 1
    requires Diverge(StepKeys(steps), q)
    ensures Lookup(Write(node, steps, v), q) == Lookup(node, q)
    decreases |steps|
  {
    StepKeysTail(steps);
    var k := steps[0].key;
    var w := Write(node, steps, v);
    if q[0] != k {
      assert GetKey(w, q[0]) == GetKey(node, q[0]);
    } else if Accepts(node, k) {
      var child := Intermediate(node, steps[0]);
      var tail := steps[1..];
      assert |steps| > 1 && Diverge(StepKeys(tail), q[1..]);
      WriteFrame(child, tail, v, q[1..]);
      calc {
        Lookup(w, q);
        Lookup(GetKey(w, k), q[1..]);
        { assert GetKey(w, k) == Write(child, tail, v); }
        Lookup(Write(child, tail, v), q[1..]);
        Lookup(child, q[1..]);
        { IntermediateLookup(node, steps[0], q[1..]); }
        Lookup(GetKey(node, k), q[1..]);
        Lookup(node, q);
      }
    }
  }

  /** Below the first segment, reading through the intermediate is reading through
      the original child: a falsy child and a fresh container both hold nothing. */
  lemma IntermediateLookup(node: Value, s: Step, path: seq<string>)
    requires |path| > 0
    ensures Lookup(Intermediate(node, s), path) == Lookup(GetKey(node, s.key), path)
  {
    if !Truthy(GetKey(node, s.key)) {
      LookupNoProperties(Empty(s.init), path);
      LookupNoProperties(GetKey(node, s.key), path);
    }
  }

  /** Each intermediate after the write is a container: the existing one when it
      was truthy, otherwise a fresh one of the planned kind. */
  lemma {:induction false} WriteShape(node: Value, steps: seq<Step>, v: Value, i: nat)
    requires Reachable(node, steps) && 0 < i < |steps|
    ensures IsComposite(Lookup(Write(node, steps, v), StepKeys(steps)[..i]))
    ensures KindOf(Lookup(Write(node, steps, v), StepKeys(steps)[..i])) ==
      (if Truthy(Lookup(node, StepKeys(steps)[..i])) then KindOf(Lookup(node, StepKeys(steps)[..i]))
       else steps[i - 1].init)
    ensures Truthy(Lookup(node, StepKeys(steps)[..i])) ==> IsComposite(Lookup(node, StepKeys(steps)[..i]))
    decreases |steps|, 1
  {
    if i == 1 {
      StepKeysTail(steps);
      WriteHead(node, steps, v);
      assert StepKeys(steps)[..1] == [steps[0].key];
    } else {
      WriteShapeBelow(node, steps, v, i);
    }
  }

  /** The case of `WriteShape` below the first segment: the prefix runs
      through the rewritten child, which the rest of the plan shapes. */
  lemma {:induction false} WriteShapeBelow(node: Value, steps: seq<Step>, v: Value, i: nat)
    requires Reachable(node, steps) && 1 < i < |steps|
    ensures IsComposite(Lookup(Write(node, steps, v), StepKeys(steps)[..i]))
    ensures KindOf(Lookup(Write(node, steps, v), StepKeys(steps)[..i])) ==
      (if Truthy(Lookup(node, StepKeys(steps)[..i])) then KindOf(Lookup(node, StepKeys(steps)[..i]))
       else steps[i - 1].init)
    ensures Truthy(Lookup(node, StepKeys(steps)[..i])) ==> IsComposite(Lookup(node, StepKeys(steps)[..i]))
    decreases |steps|, 0
  {
    var keys := StepKeys(steps);
    var k := steps[0].key;
    var child := Intermediate(node, steps[0]);
    var wc := Write(child, steps[1..], v);
    WriteHead(node, steps, v);
    var rest := StepKeys(steps[1..])[..i - 1];
    StepKeysPrefix(steps, i);
    WriteShape(child, steps[1..], v, i - 1);
    assert Lookup(Write(node, steps, v), keys[..i]) == Lookup(wc, rest);
    assert Lookup(node, keys[..i]) == Lookup(GetKey(node, k), rest);
    IntermediateLookup(node, steps[0], rest);
  }

  /** The first step stores the rewritten intermediate, which is a container of
      the same kind as before the write. */
  lemma WriteHead(node: Value, steps: seq<Step>, v: Value)
    requires Reachable(node, steps) && |steps| > 1
    ensures GetKey(Write(node, steps, v), steps[0].key) == Write(Intermediate(node, steps[0]), steps[1..], v)
    ensures IsComposite(Intermediate(node, steps[0]))
    ensures KindOf(Write(Intermediate(node, steps[0]), steps[1..], v)) == KindOf(Intermediate(node, steps[0]))
  {
    var child := Intermediate(node, steps[0]);
    assert Accepts(child, steps[1].key);
    if |steps[1..]| > 1 {
      assert Write(child, steps[1..], v) == PutKey(child, steps[1].key, Write(Intermediate(child, steps[1]), steps[2..], v));
    }
  }

  // ---------------------------------------------------------------------------
  // Facts used when several setters run one after another

  /** Two plans built from the same spec agree on the initializer wherever
      their paths agree. */
  predicate InitsAgree(s1: seq<Step>, s2: seq<Step>)
    decreases |s1|
  {
    |s1| > 0 && |s2| > 0 && s1[0].key == s2[0].key ==>
      s1[0].init == s2[0].init && InitsAgree(s1[1..], s2[1..])
  }

  lemma {:induction false} PlansAgree(spec: Value, p1: seq<string>, p2: seq<string>)
    requires Traversable(spec, p1) && Traversable(spec, p2)
    ensures InitsAgree(Plan(spec, p1), Plan(spec, p2))
    decreases |p1|
  {
    if |p1| > 0 && |p2| > 0 && p1[0] == p2[0] {
      var sub := GetKey(spec, p1[0]);
      assert Plan(spec, p1)[1..] == Plan(sub, p1[1..]);
      assert Plan(spec, p2)[1..] == Plan(sub, p2[1..]);
      PlansAgree(sub, p1[1..], p2[1..]);
    }
  }

  /** A write along one path keeps every diverging path reachable. */
  lemma {:induction false} ReachPreserved(node: Value, s1: seq<Step>, s2: seq<Step>, v: Value)
    requires Reachable(node, s1) && Reachable(node, s2)
    requires Diverge(StepKeys(s1), StepKeys(s2))
    requires InitsAgree(s1, s2)
    ensures Reachable(Write(node, s2, v), s1)
    decreases |s1|, 1
  {
    StepKeysTail(s1);
    StepKeysTail(s2);
    var w := Write(node, s2, v);
    if s1[0].key != s2[0].key {
      assert GetKey(w, s1[0].key) == GetKey(node, s1[0].key);
      assert Intermediate(w, s1[0]) == Intermediate(node, s1[0]);
    } else {
      ReachPreservedBelow(node, s1, s2, v);
    }
  }

  /** The case of `ReachPreserved` where both paths start with the same key:
      the write rebuilds the shared child, and the rest of the path is
      reachable in it. */
  lemma {:induction false} ReachPreservedBelow(node: Value, s1: seq<Step>, s2: seq<Step>, v: Value)
    requires Reachable(node, s1) && Reachable(node, s2)
    requires Diverge(StepKeys(s1), StepKeys(s2))
    requires InitsAgree(s1, s2)
    requires s1[0].key == s2[0].key
    ensures Reachable(Write(node, s2, v), s1)
    decreases |s1|, 0
  {
    StepKeysTail(s1);
    StepKeysTail(s2);
    var c := Intermediate(node, s1[0]);
    assert c == Intermediate(node, s2[0]);
    assert |s1| > 1 && |s2| > 1;
    WriteHead(node, s2, v);
    var w := Write(node, s2, v);
    assert Intermediate(w, s1[0]) == Write(c, s2[1..], v);
    ReachPreserved(c, s1[1..], s2[1..], v);
  }

  /** Every segment below an array in the spec is an array index. */
  predicate IndicesUnderArrays(spec: Value, path: seq<string>)
    decreases |path|
  {
    |path| == 0 ||
      ((spec.Arr? ==> ArrayIndex(path[0]).Some?) && IndicesUnderArrays(GetKey(spec, path[0]), path[1..]))
  }

  /** Whenever a plan initialises an array, the next segment is an index. */
  predicate Chained(steps: seq<Step>) {
    forall i :: 0 <= i < |steps| - 1 ==> steps[i].init == ArrayKind ==> ArrayIndex(steps[i + 1].key).Some?
  }

  lemma {:induction false} PlanChained(spec: Value, path: seq<string>)
    requires Traversable(spec, path) && IndicesUnderArrays(spec, path)
    ensures Chained(Plan(spec, path))
    decreases |path|
  {
    if |path| > 1 {
      var sub := GetKey(spec, path[0]);
      var steps := Plan(spec, path);
      assert steps[1..] == Plan(sub, path[1..]);
      PlanChained(sub, path[1..]);
      assert sub.Arr? ==> ArrayIndex(path[1]).Some?;
      assert steps[0].init == KindOf(sub);
      assert steps[1].key == path[1];
      forall i | 0 <= i < |steps| - 1
        ensures steps[i].init == ArrayKind ==> ArrayIndex(steps[i + 1].key).Some?
      {
        if i > 0 {
          assert steps[i] == steps[1..][i - 1] && steps[i + 1] == steps[1..][i];
        }
      }
    }
  }

  /** A container whose first segment is missing reaches along any chained plan:
      every intermediate is freshly initialised. */
  lemma {:induction false} FreshReachable(node: Value, steps: seq<Step>)
    requires |steps| >= 1 && Accepts(node, steps[0].key)
    requires |steps| > 1 ==> !Truthy(GetKey(node, steps[0].key))
    requires Chained(steps)
    ensures Reachable(node, steps)
    decreases |steps|
  {
    if |steps| > 1 {
      var child := Empty(steps[0].init);
      assert Intermediate(node, steps[0]) == child;
      assert Chained(steps[1..]) by {
        forall i | 0 <= i < |steps[1..]| - 1
          ensures steps[1..][i].init == ArrayKind ==> ArrayIndex(steps[1..][i + 1].key).Some?
        {
          assert steps[1..][i] == steps[i + 1] && steps[1..][i + 1] == steps[i + 2];
        }
      }
      assert steps[0].init == ArrayKind ==> ArrayIndex(steps[1].key).Some?;
      FreshReachable(child, steps[1..]);
    }
  }
}

=== FILE: template.dfy ===
/** The request template (`Template` and `Template.prototype.eval`). The
    constructor registers resolvers part by part in the spec's top-level key
    order: `uri` as a placeholder or a URI template, `method` as a constant,
    and every other truthy part through the spec walker. Evaluation starts
    from `{ method: context.request.method }` and lets every resolver write
    its value into that object in turn. */
module RequestTemplate {
  import opened Results
  import opened JsValues
  import opened Paths
  import opened Setter
  import opened Placeholder
  import opened Walker

  datatype Template = Template(resolvers: seq<Resolver>)

  // ---------------------------------------------------------------------------
  // Reference: the templates a spec holds, in registration order

  /** `/^\{[^\{}]+}$/.test(spec.uri)`, where the test reads `String(spec.uri)`. */
  predicate UriPlaceholder(v: Value) {
    Braced(ToJsString(v), false)
  }

  /** The templates of one top-level part: `uri` and `method` are single
      templates at their own key; any other part contributes the leaves of its
      value when that value is truthy, and nothing otherwise. */
  function PartLeaves(f: Field): seq<Leaf> {
    if f.key == "uri" || f.key == "method" then [Leaf([f.key], f.val)]
    else if Truthy(f.val) then Prefixed(f.key, Leaves(f.val))
    else []
  }

  /** The templates of the parts from index `i` on, in key order. */
  function TemplateLeaves(spec: Value, i: nat): seq<Leaf>
    requires spec.Obj? && i <= |spec.fields|
    decreases |spec.fields| - i
  {
    if i == |spec.fields| then [] else PartLeaves(spec.fields[i]) + TemplateLeaves(spec, i + 1)
  }

  /** The source registered for a template, by the part it belongs to. */
  function SourceFor(l: Leaf): Source
    requires |l.path| >= 1
  {
    if l.path == ["uri"] then
      var s := ToJsString(l.value);
      if UriPlaceholder(l.value) && ValidPath(Inner(s)) then Expr(AccessOf(Inner(s), "uri")) else UriTpl(l.value)
    else if l.path == ["method"] then Literal(l.value)
    else SourceOf(l.value, l.path[0])
  }

  /** Whether a part compiles: a `uri` placeholder must name a valid path, and
      a walked part must be a compilable tree. */
  predicate PartOk(f: Field) {
    if f.key == "uri" then UriPlaceholder(f.val) ==> ValidPath(Inner(ToJsString(f.val)))
    else if f.key == "method" then true
    else Truthy(f.val) ==> Compilable(f.val)
  }

  /** Resolver `r` is the one registered for template `l`. */
  predicate RegisteredLeaf(spec: Value, r: Resolver, l: Leaf) {
    && |l.path| >= 1
    && Traversable(spec, l.path)
    && r.steps == Plan(spec, l.path)
    && r.source == SourceFor(l)
  }

  predicate Registered(spec: Value, rs: seq<Resolver>, ls: seq<Leaf>) {
    |rs| == |ls| && forall j :: 0 <= j < |rs| ==> RegisteredLeaf(spec, rs[j], ls[j])
  }

  lemma RegisteredAppend(spec: Value, r1: seq<Resolver>, l1: seq<Leaf>, r2: seq<Resolver>, l2: seq<Leaf>)
    requires Registered(spec, r1, l1) && Registered(spec, r2, l2)
    ensures Registered(spec, r1 + r2, l1 + l2)
  {
    forall j | 0 <= j < |r1 + r2|
      ensures RegisteredLeaf(spec, (r1 + r2)[j], (l1 + l2)[j])
    {
      if j >= |r1| {
        assert (r1 + r2)[j] == r2[j - |r1|] && (l1 + l2)[j] == l2[j - |l1|];
      } else {
        assert (r1 + r2)[j] == r1[j] && (l1 + l2)[j] == l1[j];
      }
    }
  }

  /** The walker's resolvers for part `k` are registered for the part's leaves. */
  lemma RegisteredFromWalk(spec: Value, k: string, rs: seq<Resolver>, ls: seq<Leaf>)
    requires k != "uri" && k != "method"
    requires Matches(spec, k, [k], rs, ls)
    ensures Registered(spec, rs, Prefixed(k, ls))
  {
    var pl := Prefixed(k, ls);
    forall j | 0 <= j < |rs|
      ensures RegisteredLeaf(spec, rs[j], pl[j])
    {
      assert MatchesLeaf(spec, k, [k] + ls[j].path, rs[j], ls[j].value);
      assert pl[j] == Leaf([k] + ls[j].path, ls[j].value);
      assert pl[j].path[0] == k;
    }
  }

  // ---------------------------------------------------------------------------
  // The constructor

  /** The keys the constructor puts into setter paths are safe: every
      top-level key, and every key inside a walked part. The values of `uri`
      and `method` are stored whole, so their keys are unrestricted. */
  predicate SafeSpec(spec: Value)
    requires spec.Obj?
  {
    forall i :: 0 <= i < |spec.fields| ==>
      && SafeKey(spec.fields[i].key)
      && (spec.fields[i].key != "uri" && spec.fields[i].key != "method" ==> SafeKeys(spec.fields[i].val))
  }

  /** The key of field `i`, read back through the spec. */
  lemma PartLookup(spec: Value, i: nat)
    requires spec.Obj? && WellFormed(spec) && SafeSpec(spec) && i < |spec.fields|
    ensures Split(spec.fields[i].key) == [spec.fields[i].key]
    ensures Lookup(spec, [spec.fields[i].key]) == spec.fields[i].val
    ensures Traversable(spec, [spec.fields[i].key])
    ensures WellFormed(spec.fields[i].val)
    ensures spec.fields[i].key != "uri" && spec.fields[i].key != "method" ==> SafeKeys(spec.fields[i].val)
  {
    var f := spec.fields[i];
    SplitPlain(f.key);
    FieldValueAt(spec.fields, i);
    assert Lookup(spec, [f.key]) == Lookup(GetKey(spec, f.key), []);
    assert Traversable(GetKey(spec, f.key), []);
  }

  /** One iteration of the constructor's `forEach`. */
  function CompilePart(spec: Value, i: nat): (r: Result<seq<Resolver>, CompileError>)
    requires spec.Obj? && WellFormed(spec) && SafeSpec(spec) && i < |spec.fields|
    ensures r.Ok? <==> PartOk(spec.fields[i])
    ensures r.Ok? ==> Registered(spec, r.value, PartLeaves(spec.fields[i]))
  {
    var f := spec.fields[i];
    PartLookup(spec, i);
    if f.key == "uri" then
      var steps := Plan(spec, ["uri"]);
      if UriPlaceholder(f.val) then
        var c := CompilePlaceholder(ToJsString(f.val), "uri");
        if c.Err? then Err(InvalidTemplate(c.error)) else Ok([Resolver(steps, Expr(c.value))])
      else Ok([Resolver(steps, UriTpl(f.val))])
    else if f.key == "method" then
      Ok([Resolver(Plan(spec, ["method"]), Literal(f.val))])
    else if Truthy(f.val) then
      var w := Walk(spec, f.val, f.key, f.key);
      if w.Err? then w
      else
        RegisteredFromWalk(spec, f.key, w.value, Leaves(f.val));
        w
    else Ok([])
  }

  /** Every part from index `i` on compiles. */
  predicate PartsOk(spec: Value, i: nat)
    requires spec.Obj?
  {
    forall m :: i <= m < |spec.fields| ==> PartOk(spec.fields[m])
  }

  lemma PartsOkStep(spec: Value, i: nat)
    requires spec.Obj? && i < |spec.fields|
    ensures PartsOk(spec, i) <==> PartOk(spec.fields[i]) && PartsOk(spec, i + 1)
  {
  }

  /** The parts from index `i` on, in key order; the first part that throws
      ends the construction. */
  function CompileFrom(spec: Value, i: nat): (r: Result<seq<Resolver>, CompileError>)
    requires spec.Obj? && WellFormed(spec) && SafeSpec(spec) && i <= |spec.fields|
    ensures r.Ok? <==> PartsOk(spec, i)
    ensures r.Ok? ==> Registered(spec, r.value, TemplateLeaves(spec, i))
    decreases |spec.fields| - i
  {
    if i == |spec.fields| then Ok([])
    else
      PartsOkStep(spec, i);
      var head := CompilePart(spec, i);
      if head.Err? then Err(head.error)
      else
        var tail := CompileFrom(spec, i + 1);
        if tail.Err? then tail
        else
          RegisteredAppend(spec, head.value, PartLeaves(spec.fields[i]), tail.value, TemplateLeaves(spec, i + 1));
          Ok(head.value + tail.value)
  }

  /** `new Template(spec)`. It succeeds exactly when every part compiles, and
      then holds one resolver per template of the spec, in registration order,
      whose paths are pairwise apart and planned from the spec. */
  function Compile(spec: Value): (r: Result<Template, CompileError>)
    requires spec.Obj? && WellFormed(spec) && SafeSpec(spec)
    ensures r.Ok? <==> PartsOk(spec, 0)
    ensures r.Ok? ==> Registered(spec, r.value.resolvers, TemplateLeaves(spec, 0))
    ensures r.Ok? ==> Coherent(spec, r.value.resolvers)
  {
    var rs := CompileFrom(spec, 0);
    if rs.Err? then Err(rs.error)
    else
      TemplateLeavesShape(spec, 0);
      RegisteredCoherent(spec, rs.value, TemplateLeaves(spec, 0));
      Ok(Template(rs.value))
  }

  // ---------------------------------------------------------------------------
  // Shape of the registered paths

  /** What evaluation relies on for one resolver: a non-empty path that the
      planning loop can walk, only array indices below arrays, the setter
      planned for it, and nothing but `method` itself below `method`. */
  predicate Planned(spec: Value, r: Resolver) {
    && |PathOf(r)| >= 1
    && Traversable(spec, PathOf(r))
    && IndicesUnderArrays(spec, PathOf(r))
    && r.steps == Plan(spec, PathOf(r))
    && (PathOf(r)[0] == "method" ==> PathOf(r) == ["method"])
  }

  predicate Coherent(spec: Value, rs: seq<Resolver>) {
    && (forall j :: 0 <= j < |rs| ==> Planned(spec, rs[j]))
    && (forall a, b :: 0 <= a < b < |rs| ==> Diverge(PathOf(rs[a]), PathOf(rs[b])))
  }

  predicate LeafShape(spec: Value, l: Leaf) {
    && |l.path| >= 1
    && Traversable(spec, l.path)
    && IndicesUnderArrays(spec, l.path)
    && (l.path[0] == "method" ==> l.path == ["method"])
  }

  lemma {:induction false} TemplateLeavesShape(spec: Value, i: nat)
    requires spec.Obj? && WellFormed(spec) && i <= |spec.fields|
    ensures forall l :: l in TemplateLeaves(spec, i) ==> LeafShape(spec, l)
    ensures forall l :: l in TemplateLeaves(spec, i) ==> |l.path| >= 1 && l.path[0] in Keys(spec.fields[i..])
    ensures Apart(TemplateLeaves(spec, i))
    decreases |spec.fields| - i
  {
    if i < |spec.fields| {
      var fs := spec.fields;
      var head := PartLeaves(fs[i]);
      var tail := TemplateLeaves(spec, i + 1);
      TemplateLeavesShape(spec, i + 1);
      PartLeavesShape(spec, i);
      assert Keys(fs[i..]) == [fs[i].key] + Keys(fs[i + 1..]) by {
        assert fs[i..] == [fs[i]] + fs[i + 1..];
      }
      forall a, b | 0 <= a < |head| && 0 <= b < |tail|
        ensures Diverge(head[a].path, tail[b].path)
      {
        assert tail[b] in tail;
        KeyNotLater(spec, i, tail[b].path[0]);
      }
      ApartAppend(head, tail);
      assert TemplateLeaves(spec, i) == head + tail;
    }
  }

  lemma KeyNotLater(spec: Value, i: nat, k: string)
    requires spec.Obj? && WellFormed(spec) && i < |spec.fields|
    requires k in Keys(spec.fields[i + 1..])
    ensures k != spec.fields[i].key
  {
    var fs := spec.fields;
    var m :| 0 <= m < |Keys(fs[i + 1..])| && Keys(fs[i + 1..])[m] == k;
    assert fs[i + 1..][m] == fs[i + 1 + m];
  }

  lemma PartLeavesShape(spec: Value, i: nat)
    requires spec.Obj? && WellFormed(spec) && i < |spec.fields|
    ensures forall l :: l in PartLeaves(spec.fields[i]) ==> LeafShape(spec, l) && l.path[0] == spec.fields[i].key
    ensures Apart(PartLeaves(spec.fields[i]))
  {
    var f := spec.fields[i];
    FieldValueAt(spec.fields, i);
    assert GetKey(spec, f.key) == f.val;
    if f.key == "uri" || f.key == "method" {
      var l := Leaf([f.key], f.val);
      assert PartLeaves(f) == [l];
      assert Traversable(f.val, []) && IndicesUnderArrays(f.val, []);
      assert [f.key][1..] == [];
      assert LeafShape(spec, l);
    } else if Truthy(f.val) {
      LeavesSound(f.val);
      LeavesDiverge(f.val);
      PrefixedApart(f.key, Leaves(f.val));
      forall l | l in PartLeaves(f)
        ensures LeafShape(spec, l) && l.path[0] == f.key
      {
        var j :| 0 <= j < |Leaves(f.val)| && Prefixed(f.key, Leaves(f.val))[j] == l;
        var c := Leaves(f.val)[j];
        assert c in Leaves(f.val);
        assert l.path[1..] == c.path;
      }
    }
  }

  lemma RegisteredCoherent(spec: Value, rs: seq<Resolver>, ls: seq<Leaf>)
    requires Registered(spec, rs, ls)
    requires forall l :: l in ls ==> LeafShape(spec, l)
    requires Apart(ls)
    ensures Coherent(spec, rs)
    ensures forall j :: 0 <= j < |rs| ==> PathOf(rs[j]) == ls[j].path
  {
    forall j | 0 <= j < |rs|
      ensures PathOf(rs[j]) == ls[j].path && Planned(spec, rs[j])
    {
      assert RegisteredLeaf(spec, rs[j], ls[j]);
      assert ls[j] in ls;
    }
  }

  // ---------------------------------------------------------------------------
  // Evaluation

  /** The value a resolver hands to its setter. A placeholder runs on a fresh
      result cell; a URI template is expanded by `expand` over
      `context.request.params`. */
  function Produce(r: Resolver, ctx: Value, expand: (Value, Value) -> Value): (x: Value)
    ensures r.source.Literal? ==> x == r.source.value
    ensures r.source.Expr? ==> x == Lookup(ctx, r.source.access.path)
    ensures r.source.UriTpl? ==> x == expand(r.source.template, Lookup(ctx, ["request", "params"]))
  {
    assert Lookup(ctx, ["request", "params"]) == GetKey(GetKey(ctx, "request"), "params") by {
      assert ["request", "params"][1..] == ["params"];
      assert ["request", "params"][1..][1..] == [];
    }
    match r.source
    case Literal(v) => v
    case Expr(a) => ResolveOnce(Undefined, a, ctx).0
    case UriTpl(t) => expand(t, GetKey(GetKey(ctx, "request"), "params"))
  }

  /** `{ method: context.request.method }` */
  function Seed(ctx: Value): (r: Value)
    ensures r.Obj? && Keys(r.fields) == ["method"]
    ensures GetKey(r, "method") == Lookup(ctx, ["request", "method"])
  {
    assert Lookup(ctx, ["request", "method"]) == GetKey(GetKey(ctx, "request"), "method") by {
      assert ["request", "method"][1..] == ["method"];
      assert ["request", "method"][1..][1..] == [];
    }
    Obj([Field("method", GetKey(GetKey(ctx, "request"), "method"))])
  }

  /** The `forEach` over the resolvers, each writing into the object in turn. */
  function Run(out: Value, rs: seq<Resolver>, ctx: Value, expand: (Value, Value) -> Value): (r: Value)
    ensures r.Obj? == out.Obj?
    decreases |rs|
  {
    if |rs| == 0 then out
    else
      var next := SetAt(out, rs[0].steps, Produce(rs[0], ctx, expand));
      Run(next, rs[1..], ctx, expand)
  }

  /** `template.eval(context)`. Reading `context.request.method` throws unless
      both `context` and `context.request` are neither `undefined` nor `null`. */
  function Eval(t: Template, ctx: Value, expand: (Value, Value) -> Value): (r: Value)
    requires !Nullish(ctx) && !Nullish(GetKey(ctx, "request"))
    ensures r.Obj?
  {
    Run(Seed(ctx), t.resolvers, ctx, expand)
  }

  // ---------------------------------------------------------------------------
  // What evaluation produces

  /** What a template leaves at its own path: its value when defined, and
      otherwise whatever the object held there before. */
  function Settled(out: Value, r: Resolver, ctx: Value, expand: (Value, Value) -> Value): Value {
    var v := Produce(r, ctx, expand);
    if v.Undefined? then Lookup(out, PathOf(r)) else v
  }

  /** Every remaining setter can store along its whole path. */
  predicate Ready(out: Value, rs: seq<Resolver>) {
    forall j :: 0 <= j < |rs| ==> Reachable(out, rs[j].steps)
  }

  lemma CoherentTail(spec: Value, rs: seq<Resolver>)
    requires Coherent(spec, rs) && |rs| > 0
    ensures Coherent(spec, rs[1..])
  {
    forall a, b | 0 <= a < b < |rs[1..]|
      ensures Diverge(PathOf(rs[1..][a]), PathOf(rs[1..][b]))
    {
      assert rs[1..][a] == rs[a + 1] && rs[1..][b] == rs[b + 1];
    }
  }

  /** Any two different resolvers of a coherent list part ways. */
  lemma CoherentApart(spec: Value, rs: seq<Resolver>, a: nat, b: nat)
    requires Coherent(spec, rs) && a < |rs| && b < |rs| && a != b
    ensures Diverge(PathOf(rs[a]), PathOf(rs[b]))
  {
    if b < a {
      DivergeSymmetric(PathOf(rs[b]), PathOf(rs[a]));
    }
  }

  /** Every path can be stored along in the seed: the only key it holds is
      `method`, and no other path goes through `method`. */
  lemma SeedReady(spec: Value, rs: seq<Resolver>, ctx: Value)
    requires Coherent(spec, rs)
    ensures Ready(Seed(ctx), rs)
  {
    forall j | 0 <= j < |rs|
      ensures Reachable(Seed(ctx), rs[j].steps)
    {
      var p := PathOf(rs[j]);
      assert Planned(spec, rs[j]);
      PlanChained(spec, p);
      if |rs[j].steps| > 1 {
        assert p[0] != "method";
        SeedKey(ctx, p[0]);
      }
      FreshReachable(Seed(ctx), rs[j].steps);
    }
  }

  /** After the first setter has run, the others can still store along their
      paths: a write along one path keeps the diverging ones reachable, since
      both were planned from the same spec. */
  lemma ReadyAfterFirst(spec: Value, rs: seq<Resolver>, out: Value, v: Value)
    requires Coherent(spec, rs) && Ready(out, rs) && |rs| > 0
    ensures Ready(SetAt(out, rs[0].steps, v), rs[1..])
  {
    forall m | 0 <= m < |rs[1..]|
      ensures Reachable(SetAt(out, rs[0].steps, v), rs[1..][m].steps)
    {
      ReachableAfter(spec, rs, out, v, m);
    }
  }

  lemma ReachableAfter(spec: Value, rs: seq<Resolver>, out: Value, v: Value, m: nat)
    requires Coherent(spec, rs) && Ready(out, rs) && m + 1 < |rs|
    ensures Reachable(SetAt(out, rs[0].steps, v), rs[1..][m].steps)
  {
    assert rs[1..][m] == rs[m + 1];
    var first, r := rs[0], rs[m + 1];
    assert Planned(spec, first) && Planned(spec, r);
    assert Reachable(out, first.steps) && Reachable(out, r.steps);
    CoherentApart(spec, rs, m + 1, 0);
    if !v.Undefined? {
      PlansAgree(spec, PathOf(r), PathOf(first));
      ReachPreserved(out, r.steps, first.steps, v);
    }
  }

  /** A path that every resolver either parts ways with or leaves alone,
      because its value is `undefined`, reads as before the run. */
  lemma {:induction false} RunFrame(rs: seq<Resolver>, out: Value, ctx: Value, expand: (Value, Value) -> Value, q: seq<string>)
    requires forall j :: 0 <= j < |rs| ==> Diverge(PathOf(rs[j]), q) || Produce(rs[j], ctx, expand).Undefined?
    ensures Lookup(Run(out, rs, ctx, expand), q) == Lookup(out, q)
    decreases |rs|
  {
    if |rs| > 0 {
      var next := SetAt(out, rs[0].steps, Produce(rs[0], ctx, expand));
      assert Lookup(next, q) == Lookup(out, q) by {
        assert Diverge(PathOf(rs[0]), q) || Produce(rs[0], ctx, expand).Undefined?;
      }
      forall j | 0 <= j < |rs[1..]|
        ensures Diverge(PathOf(rs[1..][j]), q) || Produce(rs[1..][j], ctx, expand).Undefined?
      {
        assert rs[1..][j] == rs[j + 1];
      }
      RunFrame(rs[1..], next, ctx, expand, q);
    }
  }

  /** What a prefix of a resolver's path may hold: nothing yet, or a
      container of the kind the spec has there. */
  predicate ShapedAt(spec: Value, out: Value, q: seq<string>) {
    IsComposite(Lookup(out, q)) && KindOf(Lookup(out, q)) == KindOf(Lookup(spec, q))
  }

  predicate OpenAt(spec: Value, out: Value, q: seq<string>) {
    Lookup(out, q).Undefined? || ShapedAt(spec, out, q)
  }

  /** One setter's effect on a prefix `q` it parts ways with or runs through:
      a container there keeps its kind, and a defined value passing through
      leaves a container of the spec's kind. */
  lemma StepShape(spec: Value, r: Resolver, out: Value, v: Value, q: seq<string>)
    requires Planned(spec, r) && Reachable(out, r.steps) && |q| >= 1
    requires Diverge(PathOf(r), q) || Through(PathOf(r), q)
    ensures OpenAt(spec, out, q) ==> OpenAt(spec, SetAt(out, r.steps, v), q)
    ensures ShapedAt(spec, out, q) ==> ShapedAt(spec, SetAt(out, r.steps, v), q)
    ensures OpenAt(spec, out, q) && Through(PathOf(r), q) && !v.Undefined? ==> ShapedAt(spec, SetAt(out, r.steps, v), q)
  {
    var steps := r.steps;
    var w := SetAt(out, steps, v);
    if v.Undefined? {
      assert w == out;
    } else if Diverge(PathOf(r), q) {
      if Through(PathOf(r), q) {
        ThroughNotDiverge(PathOf(r), q);
        assert false;
      }
      assert Lookup(w, q) == Lookup(out, q);
    } else {
      var i := |q|;
      assert 0 < i < |steps| && StepKeys(steps)[..i] == q;
      assert steps[i - 1].init == KindOf(Lookup(spec, q)) by {
        assert PathOf(r)[..i] == q;
      }
      assert IsComposite(Lookup(w, q));
      assert KindOf(Lookup(w, q)) ==
        (if Truthy(Lookup(out, q)) then KindOf(Lookup(out, q)) else steps[i - 1].init);
    }
  }

  /** Over a whole run, a prefix that every resolver parts ways with or runs
      through stays open, and a container there stays one. */
  lemma {:induction false} RunKeepsShape(spec: Value, rs: seq<Resolver>, out: Value, ctx: Value,
                                         expand: (Value, Value) -> Value, q: seq<string>)
    requires Coherent(spec, rs) && Ready(out, rs) && |q| >= 1
    requires forall m :: 0 <= m < |rs| ==> Diverge(PathOf(rs[m]), q) || Through(PathOf(rs[m]), q)
    ensures OpenAt(spec, out, q) ==> OpenAt(spec, Run(out, rs, ctx, expand), q)
    ensures ShapedAt(spec, out, q) ==> ShapedAt(spec, Run(out, rs, ctx, expand), q)
    decreases |rs|
  {
    if |rs| > 0 {
      var v := Produce(rs[0], ctx, expand);
      var next := SetAt(out, rs[0].steps, v);
      assert Planned(spec, rs[0]) && Reachable(out, rs[0].steps);
      StepShape(spec, rs[0], out, v, q);
      CoherentTail(spec, rs);
      ReadyAfterFirst(spec, rs, out, v);
      RunTailSplits(rs, q);
      RunKeepsShape(spec, rs[1..], next, ctx, expand, q);
    }
  }

  /** A resolver with a defined value that runs through `q` leaves a container
      of the spec's kind there at the end of the run. */
  lemma {:induction false} RunShape(spec: Value, rs: seq<Resolver>, out: Value, ctx: Value,
                                    expand: (Value, Value) -> Value, q: seq<string>, j: nat)
    requires Coherent(spec, rs) && Ready(out, rs) && |q| >= 1 && OpenAt(spec, out, q)
    requires forall m :: 0 <= m < |rs| ==> Diverge(PathOf(rs[m]), q) || Through(PathOf(rs[m]), q)
    requires j < |rs| && Through(PathOf(rs[j]), q) && !Produce(rs[j], ctx, expand).Undefined?
    ensures ShapedAt(spec, Run(out, rs, ctx, expand), q)
    decreases |rs|
  {
    var v := Produce(rs[0], ctx, expand);
    var next := SetAt(out, rs[0].steps, v);
    assert Planned(spec, rs[0]) && Reachable(out, rs[0].steps);
    StepShape(spec, rs[0], out, v, q);
    CoherentTail(spec, rs);
    ReadyAfterFirst(spec, rs, out, v);
    RunTailSplits(rs, q);
    if j == 0 {
      RunKeepsShape(spec, rs[1..], next, ctx, expand, q);
    } else {
      assert rs[1..][j - 1] == rs[j];
      RunShape(spec, rs[1..], next, ctx, expand, q, j - 1);
    }
  }

  lemma RunTailSplits(rs: seq<Resolver>, q: seq<string>)
    requires |rs| > 0
    requires forall m :: 0 <= m < |rs| ==> Diverge(PathOf(rs[m]), q) || Through(PathOf(rs[m]), q)
    ensures forall m :: 0 <= m < |rs[1..]| ==> Diverge(PathOf(rs[1..][m]), q) || Through(PathOf(rs[1..][m]), q)
  {
    forall m | 0 <= m < |rs[1..]|
      ensures Diverge(PathOf(rs[1..][m]), q) || Through(PathOf(rs[1..][m]), q)
    {
      assert rs[1..][m] == rs[m + 1];
    }
  }

  /** Each resolver's value ends up at its path, and an undefined value leaves
      that path as it was. */
  lemma {:induction false} RunPlaces(spec: Value, rs: seq<Resolver>, out: Value, ctx: Value,
                                     expand: (Value, Value) -> Value, j: nat)
    requires Coherent(spec, rs) && Ready(out, rs) && j < |rs|
    ensures Lookup(Run(out, rs, ctx, expand), PathOf(rs[j])) == Settled(out, rs[j], ctx, expand)
    decreases |rs|
  {
    if j == 0 {
      RunPlacesFirst(spec, rs, out, ctx, expand);
    } else {
      var next := SetAt(out, rs[0].steps, Produce(rs[0], ctx, expand));
      CoherentTail(spec, rs);
      ReadyAfterFirst(spec, rs, out, Produce(rs[0], ctx, expand));
      RunPlaces(spec, rs[1..], next, ctx, expand, j - 1);
      assert rs[1..][j - 1] == rs[j];
      CoherentApart(spec, rs, 0, j);
      SettledAfter(out, rs[0], rs[j], ctx, expand);
    }
  }

  /** The first resolver's own write is never overwritten. */
  lemma RunPlacesFirst(spec: Value, rs: seq<Resolver>, out: Value, ctx: Value, expand: (Value, Value) -> Value)
    requires Coherent(spec, rs) && Ready(out, rs) && |rs| > 0
    ensures Lookup(Run(out, rs, ctx, expand), PathOf(rs[0])) == Settled(out, rs[0], ctx, expand)
  {
    var next := SetAt(out, rs[0].steps, Produce(rs[0], ctx, expand));
    forall m | 0 <= m < |rs[1..]|
      ensures Diverge(PathOf(rs[1..][m]), PathOf(rs[0]))
    {
      assert rs[1..][m] == rs[m + 1];
      CoherentApart(spec, rs, m + 1, 0);
    }
    RunFrame(rs[1..], next, ctx, expand, PathOf(rs[0]));
    assert Reachable(out, rs[0].steps);
  }

  /** A write along one path leaves what a diverging resolver would settle on. */
  lemma SettledAfter(out: Value, first: Resolver, r: Resolver, ctx: Value, expand: (Value, Value) -> Value)
    requires Diverge(PathOf(first), PathOf(r))
    ensures Settled(SetAt(out, first.steps, Produce(first, ctx, expand)), r, ctx, expand) == Settled(out, r, ctx, expand)
  {
  }

  /** `context.request.method` */
  function RequestMethod(ctx: Value): Value {
    GetKey(GetKey(ctx, "request"), "method")
  }

  lemma SeedKey(ctx: Value, k: string)
    ensures GetKey(Seed(ctx), k) == if k == "method" then RequestMethod(ctx) else Undefined
  {
    var fs := Seed(ctx).fields;
    assert fs[0].key == "method" && fs[0].val == RequestMethod(ctx);
    if k != "method" {
      assert fs[1..] == [];
      assert FieldValue(fs, k) == FieldValue(fs[1..], k);
    }
  }

  lemma SeedLookup(ctx: Value, p: seq<string>)
    requires |p| >= 1
    ensures Lookup(Seed(ctx), p) == (if p == ["method"] then RequestMethod(ctx) else if p[0] == "method" then Lookup(RequestMethod(ctx), p[1..]) else Undefined)
  {
    SeedKey(ctx, p[0]);
    if p == ["method"] {
      assert p[1..] == [];
    }
  }

  /** Placement: after `eval`, the path of every template of the spec holds
      the template's value when it resolved; an unresolved template leaves
      nothing there, except at `method`, which keeps the request's method. */
  lemma EvalPlaces(spec: Value, t: Template, ctx: Value, expand: (Value, Value) -> Value, j: nat)
    requires spec.Obj? && WellFormed(spec) && SafeSpec(spec) && Compile(spec) == Ok(t)
    requires !Nullish(ctx) && !Nullish(GetKey(ctx, "request"))
    requires j < |TemplateLeaves(spec, 0)|
    ensures |t.resolvers| == |TemplateLeaves(spec, 0)|
    ensures
      var p := TemplateLeaves(spec, 0)[j].path;
      var v := Produce(t.resolvers[j], ctx, expand);
      Lookup(Eval(t, ctx, expand), p) ==
        if !v.Undefined? then v else if p == ["method"] then RequestMethod(ctx) else Undefined
  {
    var rs := t.resolvers;
    var ls := TemplateLeaves(spec, 0);
    TemplateLeavesShape(spec, 0);
    RegisteredCoherent(spec, rs, ls);
    SeedReady(spec, rs, ctx);
    RunPlaces(spec, rs, Seed(ctx), ctx, expand, j);
    assert ls[j] in ls;
    SeedLookup(ctx, ls[j].path);
  }

  /** Every template of the spec starts with one of the spec's top-level keys. */
  lemma TemplateKeys(spec: Value, l: Leaf)
    requires spec.Obj? && WellFormed(spec) && l in TemplateLeaves(spec, 0)
    ensures |l.path| >= 1 && l.path[0] in Keys(spec.fields)
  {
    TemplateLeavesShape(spec, 0);
    assert spec.fields[0..] == spec.fields;
  }

  /** Nothing else: a path that does not go through `method` reads
      `undefined` in the result when every template either parts ways with it
      or resolved to `undefined`. Fields of the spec's parts that are not
      templates, keys the spec does not hold, everything below a written
      value, and a container all of whose templates went unresolved stay
      absent. */
  lemma EvalNothingElse(spec: Value, t: Template, ctx: Value, expand: (Value, Value) -> Value, q: seq<string>)
    requires spec.Obj? && WellFormed(spec) && SafeSpec(spec) && Compile(spec) == Ok(t)
    requires !Nullish(ctx) && !Nullish(GetKey(ctx, "request"))
    requires |q| >= 1 && q[0] != "method"
    requires forall j :: 0 <= j < |TemplateLeaves(spec, 0)| ==>
               Diverge(TemplateLeaves(spec, 0)[j].path, q) || Produce(t.resolvers[j], ctx, expand).Undefined?
    ensures Lookup(Eval(t, ctx, expand), q) == Undefined
  {
    var rs := t.resolvers;
    var ls := TemplateLeaves(spec, 0);
    TemplateLeavesShape(spec, 0);
    RegisteredCoherent(spec, rs, ls);
    RunFrame(rs, Seed(ctx), ctx, expand, q);
    SeedLookup(ctx, q);
  }

  /** Containers: every proper prefix of a template's path holds nothing or a
      container of the kind the spec has there, and a container of that kind
      once the template resolved. */
  lemma EvalShape(spec: Value, t: Template, ctx: Value, expand: (Value, Value) -> Value, j: nat, i: nat)
    requires spec.Obj? && WellFormed(spec) && SafeSpec(spec) && Compile(spec) == Ok(t)
    requires !Nullish(ctx) && !Nullish(GetKey(ctx, "request"))
    requires j < |TemplateLeaves(spec, 0)| && 0 < i < |TemplateLeaves(spec, 0)[j].path|
    ensures OpenAt(spec, Eval(t, ctx, expand), TemplateLeaves(spec, 0)[j].path[..i])
    ensures !Produce(t.resolvers[j], ctx, expand).Undefined? ==>
              ShapedAt(spec, Eval(t, ctx, expand), TemplateLeaves(spec, 0)[j].path[..i])
  {
    var rs := t.resolvers;
    var ls := TemplateLeaves(spec, 0);
    var p := ls[j].path;
    var q := p[..i];
    TemplateLeavesShape(spec, 0);
    RegisteredCoherent(spec, rs, ls);
    SeedReady(spec, rs, ctx);
    assert ls[j] in ls;
    assert PathOf(rs[j]) == p && Through(p, q);
    SeedLookup(ctx, q);
    forall m | 0 <= m < |rs|
      ensures Diverge(PathOf(rs[m]), q) || Through(PathOf(rs[m]), q)
    {
      if m != j {
        CoherentApart(spec, rs, m, j);
        DivergeFromPrefix(PathOf(rs[m]), p, i);
      }
    }
    RunKeepsShape(spec, rs, Seed(ctx), ctx, expand, q);
    if !Produce(rs[j], ctx, expand).Undefined? {
      RunShape(spec, rs, Seed(ctx), ctx, expand, q, j);
    }
  }

  /** The result holds no top-level key the spec does not name, other than
      `method`. */
  lemma EvalOnlySpecKeys(spec: Value, t: Template, ctx: Value, expand: (Value, Value) -> Value, k: string)
    requires spec.Obj? && WellFormed(spec) && SafeSpec(spec) && Compile(spec) == Ok(t)
    requires !Nullish(ctx) && !Nullish(GetKey(ctx, "request"))
    requires k != "method" && k !in Keys(spec.fields)
    ensures GetKey(Eval(t, ctx, expand), k) == Undefined
  {
    var ls := TemplateLeaves(spec, 0);
    forall j | 0 <= j < |ls|
      ensures Diverge(ls[j].path, [k])
    {
      assert ls[j] in ls;
      TemplateKeys(spec, ls[j]);
    }
    EvalNothingElse(spec, t, ctx, expand, [k]);
    assert Lookup(Eval(t, ctx, expand), [k]) == GetKey(Lookup(Eval(t, ctx, expand), []), k);
  }

  /** The `method` part of the spec overrides the request's method, unless it
      is `undefined`; without one the request's method is kept. */
  lemma EvalMethod(spec: Value, t: Template, ctx: Value, expand: (Value, Value) -> Value)
    requires spec.Obj? && WellFormed(spec) && SafeSpec(spec) && Compile(spec) == Ok(t)
    requires !Nullish(ctx) && !Nullish(GetKey(ctx, "request"))
    ensures GetKey(Eval(t, ctx, expand), "method") ==
      if "method" in Keys(spec.fields) && !GetKey(spec, "method").Undefined? then GetKey(spec, "method")
      else RequestMethod(ctx)
  {
    var out := Eval(t, ctx, expand);
    assert Lookup(out, ["method"]) == GetKey(Lookup(out, []), "method");
    if "method" in Keys(spec.fields) {
      EvalMethodGiven(spec, t, ctx, expand);
    } else {
      EvalMethodKept(spec, t, ctx, expand);
    }
  }

  lemma EvalMethodGiven(spec: Value, t: Template, ctx: Value, expand: (Value, Value) -> Value)
    requires spec.Obj? && WellFormed(spec) && SafeSpec(spec) && Compile(spec) == Ok(t)
    requires !Nullish(ctx) && !Nullish(GetKey(ctx, "request"))
    requires "method" in Keys(spec.fields)
    ensures Lookup(Eval(t, ctx, expand), ["method"]) ==
      if !GetKey(spec, "method").Undefined? then GetKey(spec, "method") else RequestMethod(ctx)
  {
    var ls := TemplateLeaves(spec, 0);
    MethodIndex(spec);
    var j :| 0 <= j < |ls| && ls[j] == Leaf(["method"], GetKey(spec, "method"));
    assert RegisteredLeaf(spec, t.resolvers[j], ls[j]);
    MethodSource(GetKey(spec, "method"));
    EvalPlaces(spec, t, ctx, expand, j);
  }

  /** A spec with a `method` part has a template at `["method"]` holding it. */
  lemma MethodIndex(spec: Value)
    requires spec.Obj? && WellFormed(spec) && "method" in Keys(spec.fields)
    ensures exists j ::
              0 <= j < |TemplateLeaves(spec, 0)| && TemplateLeaves(spec, 0)[j] == Leaf(["method"], GetKey(spec, "method"))
  {
    var ls := TemplateLeaves(spec, 0);
    var m :| 0 <= m < |spec.fields| && Keys(spec.fields)[m] == "method";
    FieldValueAt(spec.fields, m);
    MethodLeaf(spec, 0, m);
    var j :| 0 <= j < |ls| && ls[j] == Leaf(["method"], spec.fields[m].val);
  }

  lemma MethodSource(v: Value)
    ensures SourceFor(Leaf(["method"], v)) == Literal(v)
  {
    assert ["method"] != ["uri"] by {
      assert ["method"][0] != ["uri"][0] by {
        assert "method"[0] != "uri"[0];
      }
    }
  }

  lemma EvalMethodKept(spec: Value, t: Template, ctx: Value, expand: (Value, Value) -> Value)
    requires spec.Obj? && WellFormed(spec) && SafeSpec(spec) && Compile(spec) == Ok(t)
    requires !Nullish(ctx) && !Nullish(GetKey(ctx, "request"))
    requires "method" !in Keys(spec.fields)
    ensures Lookup(Eval(t, ctx, expand), ["method"]) == RequestMethod(ctx)
  {
    var rs := t.resolvers;
    var ls := TemplateLeaves(spec, 0);
    TemplateLeavesShape(spec, 0);
    RegisteredCoherent(spec, rs, ls);
    forall j | 0 <= j < |rs|
      ensures Diverge(PathOf(rs[j]), ["method"])
    {
      assert ls[j] in ls;
      TemplateKeys(spec, ls[j]);
    }
    RunFrame(rs, Seed(ctx), ctx, expand, ["method"]);
    SeedLookup(ctx, ["method"]);
  }

  lemma {:induction false} MethodLeaf(spec: Value, i: nat, m: nat)
    requires spec.Obj? && i <= m < |spec.fields| && spec.fields[m].key == "method"
    ensures Leaf(["method"], spec.fields[m].val) in TemplateLeaves(spec, i)
    decreases m - i
  {
    var rest := TemplateLeaves(spec, i + 1);
    assert TemplateLeaves(spec, i) == PartLeaves(spec.fields[i]) + rest;
    if i < m {
      MethodLeaf(spec, i + 1, m);
    } else {
      assert PartLeaves(spec.fields[i]) == [Leaf(["method"], spec.fields[m].val)];
    }
  }
}

=== FILE: values.dfy ===
/** JavaScript values as the template compiler and evaluator see them: JSON data
    plus `undefined`, the marker the compiler uses for "no value". Objects keep
    their properties in the order `Object.keys` reports them. */
module JsValues {
  import opened Results

  datatype Value =
    | Undefined
    | Null
    | Bool(b: bool)
    | Num(n: int)
    | Str(s: string)
    | Arr(items: seq<Value>)
    | Obj(fields: seq<Field>)

  datatype Field = Field(key: string, val: Value)

  /** JavaScript truthiness (`0`, `""`, `false`, `null` and `undefined` are falsy). */
  predicate Truthy(v: Value) {
    match v
    case Undefined => false
    case Null => false
    case Bool(b) => b
    case Num(n) => n != 0
    case Str(s) => s != ""
    case _ => true
  }

  /** `v instanceof Object` for the values modelled here. */
  predicate IsComposite(v: Value) {
    v.Arr? || v.Obj?
  }

  /** Reading a property of these throws a TypeError in JavaScript. */
  predicate Nullish(v: Value) {
    v.Undefined? || v.Null?
  }

  /** The largest JavaScript array length, 2^32 - 1; array indices lie below it. */
  const MaxArrayLength: nat := 4294967295

  // ---------------------------------------------------------------------------
  // Decimal array-index keys

  predicate IsDigit(c: char) {
    '0' <= c <= '9'
  }

  function Digit(d: nat): (c: char)
    requires d < 10
    ensures IsDigit(c) && c as int - '0' as int == d
  {
    ('0' as int + d) as char
  }

  predicate AllDigits(s: string) {
    forall i :: 0 <= i < |s| ==> IsDigit(s[i])
  }

  /** The number a string of decimal digits denotes. */
  function DigitsValue(s: string): nat
    requires AllDigits(s)
    decreases |s|
  {
    if |s| == 0 then 0
    else DigitsValue(s[..|s| - 1]) * 10 + (s[|s| - 1] as int - '0' as int)
  }

  /** A non-empty digit string without a leading zero (except "0" itself). */
  predicate Canonical(s: string) {
    |s| > 0 && AllDigits(s) && (s[0] == '0' ==> |s| == 1)
  }

  /** The decimal spelling of `n`, which is how JavaScript names array indices. */
  function IndexKey(n: nat): string
    decreases n
  {
    if n < 10 then [Digit(n)] else IndexKey(n / 10) + [Digit(n % 10)]
  }

  /** The array index a property key denotes, if it denotes one. */
  function ArrayIndex(k: string): Option<nat> {
    if Canonical(k) && DigitsValue(k) < MaxArrayLength then Some(DigitsValue(k)) else None
  }

  lemma {:induction false} IndexKeyIsCanonical(n: nat)
    ensures Canonical(IndexKey(n)) && DigitsValue(IndexKey(n)) == n
    decreases n
  {
    if n >= 10 {
      IndexKeyIsCanonical(n / 10);
      var k := IndexKey(n);
      assert k[..|k| - 1] == IndexKey(n / 10);
    }
  }

  lemma {:induction false} PositiveLeadingDigit(s: string)
    requires Canonical(s) && s[0] != '0'
    ensures DigitsValue(s) > 0
    decreases |s|
  {
    if |s| > 1 {
      var p := s[..|s| - 1];
      assert p[0] == s[0];
      PositiveLeadingDigit(p);
    }
  }

  lemma {:induction false} CanonicalIsIndexKey(s: string)
    requires Canonical(s)
    ensures IndexKey(DigitsValue(s)) == s
    decreases |s|
  {
    var n := DigitsValue(s);
    if |s| > 1 {
      var p := s[..|s| - 1];
      assert p[0] == s[0];
      PositiveLeadingDigit(p);
      CanonicalIsIndexKey(p);
      assert n / 10 == DigitsValue(p) && n % 10 == s[|s| - 1] as int - '0' as int;
      assert s == p + [s[|s| - 1]];
    }
  }

  /** Every index below the array bound is named by its decimal key. */
  lemma IndexKeyRoundTrip(n: nat)
    requires n < MaxArrayLength
    ensures ArrayIndex(IndexKey(n)) == Some(n)
  {
    IndexKeyIsCanonical(n);
  }

  /** A key that denotes an index is that index's decimal key, so distinct keys
      never denote the same index. */
  lemma ArrayIndexRoundTrip(k: string)
    requires ArrayIndex(k).Some?
    ensures IndexKey(ArrayIndex(k).value) == k
  {
    CanonicalIsIndexKey(k);
  }

  lemma ArrayIndexInjective(k1: string, k2: string)
    requires ArrayIndex(k1).Some? && ArrayIndex(k1) == ArrayIndex(k2)
    ensures k1 == k2
  {
    ArrayIndexRoundTrip(k1);
    ArrayIndexRoundTrip(k2);
  }

  // ---------------------------------------------------------------------------
  // Object fields

  function Keys(fs: seq<Field>): (ks: seq<string>)
    ensures |ks| == |fs|
    ensures forall i :: 0 <= i < |fs| ==> ks[i] == fs[i].key
  {
    if |fs| == 0 then [] else [fs[0].key] + Keys(fs[1..])
  }

  /** The value of the first field named `k`, or `undefined`. */
  function FieldValue(fs: seq<Field>, k: string): Value {
    if |fs| == 0 then Undefined
    else if fs[0].key == k then fs[0].val
    else FieldValue(fs[1..], k)
  }

  predicate UniqueKeys(fs: seq<Field>) {
    forall i, j :: 0 <= i < j < |fs| ==> fs[i].key != fs[j].key
  }

  lemma {:induction false} FieldValueAbsent(fs: seq<Field>, k: string)
    requires k !in Keys(fs)
    ensures FieldValue(fs, k) == Undefined
  {
    if |fs| > 0 {
      assert Keys(fs[1..]) == Keys(fs)[1..];
      FieldValueAbsent(fs[1..], k);
    }
  }

  lemma {:induction false} FieldValueAt(fs: seq<Field>, i: nat)
    requires UniqueKeys(fs) && i < |fs|
    ensures FieldValue(fs, fs[i].key) == fs[i].val
  {
    if i > 0 {
      FieldValueAt(fs[1..], i - 1);
    }
  }

  /** JavaScript's property order: index keys ascending, ahead of all other keys,
      which keep their insertion order. */
  predicate KeyPrecedes(a: string, b: string) {
    match (ArrayIndex(a), ArrayIndex(b))
    case (Some(m), Some(n)) => m < n
    case (Some(_), None) => true
    case (None, Some(_)) => false
    case (None, None) => true
  }

  predicate InPropertyOrder(fs: seq<Field>) {
    forall i, j :: 0 <= i < j < |fs| ==> KeyPrecedes(fs[i].key, fs[j].key)
  }

  /** Overwrites the first field named `k`. */
  function Replace(fs: seq<Field>, k: string, x: Value): (r: seq<Field>)
    requires k in Keys(fs)
    ensures Keys(r) == Keys(fs)
    ensures FieldValue(r, k) == x
    ensures forall k' :: k' != k ==> FieldValue(r, k') == FieldValue(fs, k')
  {
    if fs[0].key == k then [Field(k, x)] + fs[1..]
    else
      assert Keys(fs[1..]) == Keys(fs)[1..];
      var rest := Replace(fs[1..], k, x);
      assert Keys([fs[0]] + rest) == [fs[0].key] + Keys(rest);
      [fs[0]] + rest
  }

  /** Where a new key `k` goes: behind every field whose key precedes it, in
      front of the first one that does not. Only an index key can stop before
      the end. */
  function InsertionPoint(fs: seq<Field>, k: string): (n: nat)
    ensures n <= |fs|
    ensures forall j :: 0 <= j < n ==> KeyPrecedes(fs[j].key, k)
    ensures n < |fs| ==> ArrayIndex(k).Some? && !KeyPrecedes(fs[n].key, k)
  {
    if |fs| == 0 then 0
    else if ArrayIndex(k).Some? && !KeyPrecedes(fs[0].key, k) then 0
    else
      var m := InsertionPoint(fs[1..], k);
      assert forall j :: 1 <= j < m + 1 ==> fs[j] == fs[1..][j - 1];
      1 + m
  }

  /** Adds a new field named `k` where JavaScript would place it: an index key
      before the first larger index or non-index key, any other key at the end. */
  function Insert(fs: seq<Field>, k: string, x: Value): (r: seq<Field>)
    requires k !in Keys(fs)
    ensures r == fs[..InsertionPoint(fs, k)] + [Field(k, x)] + fs[InsertionPoint(fs, k)..]
    ensures FieldValue(r, k) == x
    ensures forall k' :: k' != k ==> FieldValue(r, k') == FieldValue(fs, k')
    ensures InPropertyOrder(fs) ==> InPropertyOrder(r)
  {
    if |fs| == 0 then
      assert [Field(k, x)] == fs[..0] + [Field(k, x)] + fs[0..];
      [Field(k, x)]
    else if ArrayIndex(k).Some? && !KeyPrecedes(fs[0].key, k) then
      assert [Field(k, x)] + fs == fs[..0] + [Field(k, x)] + fs[0..];
      InsertFrontKeepsOrder(fs, k, x);
      [Field(k, x)] + fs
    else
      assert Keys(fs[1..]) == Keys(fs)[1..];
      var rest := Insert(fs[1..], k, x);
      InsertBehind(fs, k, x, rest, InsertionPoint(fs[1..], k));
      [fs[0]] + rest
  }

  /** The recursive step of `Insert`: what holds of the insertion into the tail
      at position `i` holds of the whole, one position later, once the head is
      put back in front. */
  lemma InsertBehind(fs: seq<Field>, k: string, x: Value, rest: seq<Field>, i: nat)
    requires |fs| > 0 && k !in Keys(fs) && i <= |fs| - 1
    requires ArrayIndex(k).None? || KeyPrecedes(fs[0].key, k)
    requires rest == fs[1..][..i] + [Field(k, x)] + fs[1..][i..]
    requires FieldValue(rest, k) == x
    requires forall k' :: k' != k ==> FieldValue(rest, k') == FieldValue(fs[1..], k')
    requires InPropertyOrder(fs[1..]) ==> InPropertyOrder(rest)
    ensures [fs[0]] + rest == fs[..i + 1] + [Field(k, x)] + fs[i + 1..]
    ensures FieldValue([fs[0]] + rest, k) == x
    ensures forall k' :: k' != k ==> FieldValue([fs[0]] + rest, k') == FieldValue(fs, k')
    ensures InPropertyOrder(fs) ==> InPropertyOrder([fs[0]] + rest)
  {
    var r := [fs[0]] + rest;
    assert fs[0].key != k by { assert fs[0].key == Keys(fs)[0]; }
    assert r[0] == fs[0] && r[1..] == rest;
    assert FieldValue(r, k) == FieldValue(rest, k);
    forall k' | k' != k
      ensures FieldValue(r, k') == FieldValue(fs, k')
    {
      if fs[0].key != k' {
        assert FieldValue(r, k') == FieldValue(rest, k');
      }
    }
    ConsSplice(fs, i, Field(k, x));
    InsertBehindKeepsOrder(fs, k, x, rest, i);
  }

  lemma ConsSplice<T>(s: seq<T>, i: nat, e: T)
    requires 0 < |s| && i <= |s| - 1
    ensures [s[0]] + (s[1..][..i] + [e] + s[1..][i..]) == s[..i + 1] + [e] + s[i + 1..]
  {
    var a := [s[0]] + (s[1..][..i] + [e] + s[1..][i..]);
    var b := s[..i + 1] + [e] + s[i + 1..];
    assert |a| == |b|;
    forall j | 0 <= j < |a|
      ensures a[j] == b[j]
    {
      if j == 0 {
      } else if j <= i {
        assert a[j] == s[1..][..i][j - 1];
      } else if j == i + 1 {
      } else {
        assert a[j] == s[1..][i..][j - i - 2];
      }
    }
  }

  lemma InsertFrontKeepsOrder(fs: seq<Field>, k: string, x: Value)
    requires |fs| > 0 && ArrayIndex(k).Some? && !KeyPrecedes(fs[0].key, k) && k != fs[0].key
    ensures InPropertyOrder(fs) ==> InPropertyOrder([Field(k, x)] + fs)
  {
    if InPropertyOrder(fs) {
      var r := [Field(k, x)] + fs;
      forall j | 0 < j < |r|
        ensures KeyPrecedes(k, r[j].key)
      {
        if j > 1 {
          assert KeyPrecedes(fs[0].key, fs[j - 1].key);
        }
        if ArrayIndex(fs[0].key) == ArrayIndex(k) {
          ArrayIndexInjective(k, fs[0].key);
        }
      }
    }
  }

  lemma InsertBehindKeepsOrder(fs: seq<Field>, k: string, x: Value, rest: seq<Field>, i: nat)
    requires |fs| > 0 && i <= |fs| - 1
    requires rest == fs[1..][..i] + [Field(k, x)] + fs[1..][i..]
    requires ArrayIndex(k).None? || KeyPrecedes(fs[0].key, k)
    requires InPropertyOrder(fs[1..]) ==> InPropertyOrder(rest)
    ensures InPropertyOrder(fs) ==> InPropertyOrder([fs[0]] + rest)
  {
    if InPropertyOrder(fs) {
      assert InPropertyOrder(fs[1..]) by {
        forall a, b | 0 <= a < b < |fs[1..]|
          ensures KeyPrecedes(fs[1..][a].key, fs[1..][b].key)
        {
          assert fs[1..][a] == fs[a + 1] && fs[1..][b] == fs[b + 1];
        }
      }
      var r := [fs[0]] + rest;
      forall j | 0 < j < |r|
        ensures KeyPrecedes(r[0].key, r[j].key)
      {
        if r[j] != Field(k, x) {
          assert r[j] in fs[1..];
          var m :| 0 <= m < |fs[1..]| && fs[1..][m] == r[j];
          assert fs[m + 1] == r[j];
        }
      }
    }
  }

  /** `obj[k] = x` on an object's fields. */
  function SetField(fs: seq<Field>, k: string, x: Value): (r: seq<Field>)
    ensures FieldValue(r, k) == x
    ensures forall k' :: k' != k ==> FieldValue(r, k') == FieldValue(fs, k')
    ensures InPropertyOrder(fs) ==> InPropertyOrder(r)
  {
    if k in Keys(fs) then
      assert Keys(Replace(fs, k, x)) == Keys(fs);
      ReplaceKeepsOrder(fs, k, x);
      Replace(fs, k, x)
    else Insert(fs, k, x)
  }

  lemma ReplaceKeepsOrder(fs: seq<Field>, k: string, x: Value)
    requires k in Keys(fs)
    ensures InPropertyOrder(fs) ==> InPropertyOrder(Replace(fs, k, x))
  {
    var r := Replace(fs, k, x);
    assert forall i :: 0 <= i < |r| ==> r[i].key == Keys(r)[i] == Keys(fs)[i] == fs[i].key;
  }

  // ---------------------------------------------------------------------------
  // Property access

  /** `v[k]` for an own data property: an object field or an array element.
      Reading through `undefined` or `null` yields `undefined` here; callers that
      must throw in that case say so in their own preconditions. */
  function GetKey(v: Value, k: string): Value {
    match v
    case Obj(fs) => FieldValue(fs, k)
    case Arr(items) =>
      var i := ArrayIndex(k);
      if i.Some? && i.value < |items| then items[i.value] else Undefined
    case _ => Undefined
  }

  /** Whether `v[k] = x` stores a property that `GetKey` can read back. */
  predicate Accepts(v: Value, k: string) {
    v.Obj? || (v.Arr? && ArrayIndex(k).Some?)
  }

  function Holes(n: nat): (r: seq<Value>)
    ensures |r| == n && forall i :: 0 <= i < n ==> r[i] == Undefined
  {
    if n == 0 then [] else Holes(n - 1) + [Undefined]
  }

  /** `v[k] = x` in sloppy-mode JavaScript. Writing past the end of an array
      leaves holes; an assignment to a string, number or boolean is silently
      dropped. On `undefined` or `null` JavaScript throws a TypeError instead;
      the setter never assigns to those, since `Setter.Intermediate` replaces
      every falsy value and the object it starts from is the new request. */
  function PutKey(v: Value, k: string, x: Value): (r: Value)
    ensures r.Obj? == v.Obj? && r.Arr? == v.Arr?
    ensures Accepts(v, k) ==> GetKey(r, k) == x
    ensures !Accepts(v, k) ==> r == v
    ensures forall k' :: k' != k ==> GetKey(r, k') == GetKey(v, k')
    ensures v.Obj? && InPropertyOrder(v.fields) ==> InPropertyOrder(r.fields)
  {
    match v
    case Obj(fs) => Obj(SetField(fs, k, x))
    case Arr(items) =>
      if ArrayIndex(k).None? then v
      else
        var i := ArrayIndex(k).value;
        var r := if i < |items| then Arr(items[i := x]) else Arr(items + Holes(i - |items|) + [x]);
        assert forall k' :: k' != k ==> GetKey(r, k') == GetKey(v, k') by {
          forall k' | k' != k
            ensures GetKey(r, k') == GetKey(v, k')
          {
            if ArrayIndex(k').Some? && ArrayIndex(k') == ArrayIndex(k) {
              ArrayIndexInjective(k, k');
            }
          }
        }
        r
    case _ => v
  }

  /** `v[p0][p1]...` where a TypeError on the way reads as `undefined`. */
  function Lookup(v: Value, path: seq<string>): (r: Value)
    ensures |path| > 0 && !IsComposite(v) ==> r == Undefined
    decreases |path|
  {
    if |path| == 0 then v else Lookup(GetKey(v, path[0]), path[1..])
  }

  /** A non-empty path through a value without own properties reads `undefined`. */
  lemma LookupNoProperties(v: Value, path: seq<string>)
    requires |path| > 0
    requires !IsComposite(v) || v == Arr([]) || v == Obj([])
    ensures Lookup(v, path) == Undefined
  {
  }

  lemma {:induction false} LookupAppend(v: Value, p: seq<string>, q: seq<string>)
    ensures Lookup(v, p + q) == Lookup(Lookup(v, p), q)
    decreases |p|
  {
    if |p| == 0 {
      assert p + q == q;
    } else {
      assert (p + q)[0] == p[0] && (p + q)[1..] == p[1..] + q;
      LookupAppend(GetKey(v, p[0]), p[1..], q);
    }
  }

  lemma LookupSnoc(v: Value, p: seq<string>, k: string)
    ensures Lookup(v, p + [k]) == GetKey(Lookup(v, p), k)
  {
    LookupAppend(v, p, [k]);
  }

  // ---------------------------------------------------------------------------
  // Enumeration and well-formedness

  /** `Object.keys(v)` paired with `v[key]`: fields in order, or array indices. */
  function Entries(v: Value): (es: seq<Field>)
    requires IsComposite(v)
    ensures v.Obj? ==> es == v.fields
    ensures v.Arr? ==> |es| == |v.items|
    ensures v.Arr? ==> forall i :: 0 <= i < |es| ==> es[i] == Field(IndexKey(i), v.items[i])
  {
    if v.Obj? then v.fields
    else seq(|v.items|, i requires 0 <= i < |v.items| => Field(IndexKey(i), v.items[i]))
  }

  /** The invariants every JavaScript object and array satisfies: property names
      are unique and listed in `Object.keys` order, and arrays are shorter than
      2^32. */
  predicate WellFormed(v: Value)
    decreases v
  {
    match v
    case Obj(fs) => UniqueKeys(fs) && InPropertyOrder(fs) && forall i :: 0 <= i < |fs| ==> WellFormed(fs[i].val)
    case Arr(items) => |items| <= MaxArrayLength && forall i :: 0 <= i < |items| ==> WellFormed(items[i])
    case _ => true
  }

  /** Each entry reads back through its own key, and keys are pairwise distinct. */
  lemma EntryLookup(v: Value, i: nat)
    requires IsComposite(v) && WellFormed(v) && i < |Entries(v)|
    ensures GetKey(v, Entries(v)[i].key) == Entries(v)[i].val
    ensures WellFormed(Entries(v)[i].val)
    ensures forall j :: 0 <= j < |Entries(v)| && j != i ==> Entries(v)[j].key != Entries(v)[i].key
  {
    if v.Obj? {
      FieldValueAt(v.fields, i);
    } else {
      IndexKeyRoundTrip(i);
      forall j | 0 <= j < |Entries(v)| && j != i
        ensures Entries(v)[j].key != Entries(v)[i].key
      {
        IndexKeyRoundTrip(j);
      }
    }
  }

  lemma EntryKeyIsIndex(v: Value, i: nat)
    requires v.Arr? && WellFormed(v) && i < |Entries(v)|
    ensures ArrayIndex(Entries(v)[i].key) == Some(i)
  {
    IndexKeyRoundTrip(i);
  }
}

=== FILE: walker.dfy ===
/** The spec walker (`_createTemplateResolvers` with its inner
    `makeResolvers`): it visits every value of one request part in
    `Object.keys` order and turns each non-container value into a resolver:
    a compiled placeholder for a `{...}` string, a constant otherwise, each
    paired with the setter for its dotted path. */
module Walker {
  import opened Results
  import opened JsValues
  import opened Paths
  import opened Setter
  import opened Placeholder

  // ---------------------------------------------------------------------------
  // Keys the generated setter code can carry

  /** A key that survives the round trip through a dotted path and through the
      `["key"]` reference of the generated code: no dot (which `split('.')`
      would cut at), no quote or backslash and no line break (which would
      change the meaning of the string literal), and not the name of a member
      every object inherits, which the setter would read and write through. */
  predicate SafeKey(k: string) {
    '.' !in k && '"' !in k && '\\' !in k && '\n' !in k && '\r' !in k && k !in InheritedNames
  }

  /** The members every object inherits from `Object.prototype`. Reading one
      of them from a plain object gives a truthy value, so the setter's
      `obj[key] || {}` keeps it and its next assignment lands on the inherited
      member (on `Object.prototype` itself for `__proto__`) instead of on a
      fresh object inside the request. */
  const InheritedNames: set<string> := {
    "__proto__", "constructor", "toString", "toLocaleString", "valueOf",
    "hasOwnProperty", "isPrototypeOf", "propertyIsEnumerable",
    "__defineGetter__", "__defineSetter__", "__lookupGetter__", "__lookupSetter__"
  }

  /** Every key anywhere in the value is safe. */
  predicate SafeKeys(v: Value)
    decreases v
  {
    match v
    case Obj(fs) => forall i :: 0 <= i < |fs| ==> SafeKey(fs[i].key) && SafeKeys(fs[i].val)
    case Arr(items) => forall i :: 0 <= i < |items| ==> SafeKeys(items[i])
    case _ => true
  }

  lemma EntrySafe(v: Value, i: nat)
    requires IsComposite(v) && SafeKeys(v) && i < |Entries(v)|
    ensures SafeKey(Entries(v)[i].key) && SafeKeys(Entries(v)[i].val)
  {
    if v.Arr? {
      IndexKeyIsCanonical(i);
      DigitsAreSafe(IndexKey(i));
    }
  }

  lemma DigitsAreSafe(k: string)
    requires AllDigits(k)
    ensures SafeKey(k)
  {
    forall c | c in k
      ensures c != '.' && c != '"' && c != '\\' && c != '\n' && c != '\r'
    {
      var j :| 0 <= j < |k| && k[j] == c;
      assert IsDigit(k[j]);
    }
    // Every inherited name starts with a letter or an underscore.
    assert |k| == 0 || IsDigit(k[0]);
  }

  /** The entries of a container are structurally below it. */
  lemma EntryBelow(v: Value, i: nat)
    requires IsComposite(v) && i < |Entries(v)|
    ensures Entries(v)[i].val < v
  {
    if v.Obj? {
      assert Entries(v)[i] == v.fields[i];
    } else {
      assert Entries(v)[i].val == v.items[i];
    }
  }

  // ---------------------------------------------------------------------------
  // Reference: the leaves of a spec tree

  /** A non-container value of the spec and the keys leading to it. */
  datatype Leaf = Leaf(path: seq<string>, value: Value)

  /** All leaves of `v` in depth-first `Object.keys` order. A container
      without entries contributes none. */
  function Leaves(v: Value): seq<Leaf>
    decreases v, 1
  {
    if IsComposite(v) then LeavesFrom(v, 0) else [Leaf([], v)]
  }

  function LeavesFrom(v: Value, i: nat): seq<Leaf>
    requires IsComposite(v) && i <= |Entries(v)|
    decreases v, 0, |Entries(v)| - i
  {
    if i == |Entries(v)| then []
    else
      var e := Entries(v)[i];
      EntryBelow(v, i);
      Prefixed(e.key, Leaves(e.val)) + LeavesFrom(v, i + 1)
  }

  /** The same leaves seen from one level up, below key `k`. */
  function Prefixed(k: string, ls: seq<Leaf>): (r: seq<Leaf>)
    ensures |r| == |ls|
    ensures forall j :: 0 <= j < |ls| ==> r[j] == Leaf([k] + ls[j].path, ls[j].value)
  {
    seq(|ls|, j requires 0 <= j < |ls| => Leaf([k] + ls[j].path, ls[j].value))
  }

  /** `p` names a leaf of `v`: every key on the way is an own key of a
      container, and the value at the end is not a container. */
  predicate IsLeafPath(v: Value, p: seq<string>)
    decreases |p|
  {
    if |p| == 0 then !IsComposite(v)
    else IsComposite(v) && p[0] in Keys(Entries(v)) && IsLeafPath(GetKey(v, p[0]), p[1..])
  }

  /** What every enumerated leaf satisfies with respect to the tree. */
  predicate LeafOf(v: Value, l: Leaf) {
    && IsLeafPath(v, l.path)
    && Lookup(v, l.path) == l.value
    && Traversable(v, l.path)
    && IndicesUnderArrays(v, l.path)
  }

  /** Soundness: each leaf sits at its path, with nothing but containers on
      the way and only array indices below arrays. */
  lemma {:induction false} LeavesSound(v: Value)
    requires WellFormed(v)
    ensures forall l :: l in Leaves(v) ==> LeafOf(v, l)
    decreases v, 1
  {
    if IsComposite(v) {
      LeavesFromSound(v, 0);
    } else {
      assert Leaves(v) == [Leaf([], v)];
    }
  }

  lemma {:induction false} LeavesFromSound(v: Value, i: nat)
    requires WellFormed(v) && IsComposite(v) && i <= |Entries(v)|
    ensures forall l :: l in LeavesFrom(v, i) ==> LeafOf(v, l)
    decreases v, 0, |Entries(v)| - i
  {
    if i < |Entries(v)| {
      var e := Entries(v)[i];
      EntryBelow(v, i);
      EntryLookup(v, i);
      LeavesSound(e.val);
      LeavesFromSound(v, i + 1);
      var head := Prefixed(e.key, Leaves(e.val));
      forall l | l in head
        ensures LeafOf(v, l)
      {
        var j :| 0 <= j < |head| && head[j] == l;
        assert Leaves(e.val)[j] in Leaves(e.val);
        LeafUnder(v, i, Leaves(e.val)[j]);
      }
      assert LeavesFrom(v, i) == head + LeavesFrom(v, i + 1);
    }
  }

  /** A leaf of an entry is a leaf of the container, one key further down. */
  lemma LeafUnder(v: Value, i: nat, c: Leaf)
    requires WellFormed(v) && IsComposite(v) && i < |Entries(v)|
    requires LeafOf(Entries(v)[i].val, c)
    ensures LeafOf(v, Leaf([Entries(v)[i].key] + c.path, c.value))
  {
    var e := Entries(v)[i];
    EntryLookup(v, i);
    var p := [e.key] + c.path;
    assert p[0] == e.key && p[1..] == c.path;
    assert Keys(Entries(v))[i] == e.key;
    if v.Arr? {
      EntryKeyIsIndex(v, i);
    }
  }

  /** The first key of every leaf path from entry `i` on is the key of one of
      those entries. */
  lemma {:induction false} LeavesFromKeys(v: Value, i: nat)
    requires IsComposite(v) && i <= |Entries(v)|
    ensures forall l :: l in LeavesFrom(v, i) ==> |l.path| >= 1 && l.path[0] in Keys(Entries(v)[i..])
    decreases |Entries(v)| - i
  {
    if i < |Entries(v)| {
      var es := Entries(v);
      var e := es[i];
      LeavesFromKeys(v, i + 1);
      assert Keys(es[i..]) == [e.key] + Keys(es[i + 1..]) by {
        assert es[i..] == [e] + es[i + 1..];
      }
      var head := Prefixed(e.key, Leaves(e.val));
      assert LeavesFrom(v, i) == head + LeavesFrom(v, i + 1);
      forall l | l in head
        ensures |l.path| >= 1 && l.path[0] == e.key
      {
        var j :| 0 <= j < |head| && head[j] == l;
      }
    }
  }

  /** Completeness: every leaf path of `v` is enumerated. */
  lemma {:induction false} LeavesComplete(v: Value, p: seq<string>)
    requires WellFormed(v) && IsLeafPath(v, p)
    ensures exists l :: l in Leaves(v) && l.path == p
    decreases |p|
  {
    if |p| == 0 {
      assert Leaves(v) == [Leaf([], v)];
      assert Leaves(v)[0].path == p;
    } else {
      var es := Entries(v);
      var i :| 0 <= i < |es| && Keys(es)[i] == p[0];
      EntryLookup(v, i);
      LeavesComplete(es[i].val, p[1..]);
      CompleteStep(v, i, p);
    }
  }

  lemma CompleteStep(v: Value, i: nat, p: seq<string>)
    requires IsComposite(v) && i < |Entries(v)| && |p| > 0 && Entries(v)[i].key == p[0]
    requires exists l :: l in Leaves(Entries(v)[i].val) && l.path == p[1..]
    ensures exists l :: l in Leaves(v) && l.path == p
  {
    var c := Entries(v)[i].val;
    var ls := Leaves(c);
    var l :| l in ls && l.path == p[1..];
    var j :| 0 <= j < |ls| && ls[j] == l;
    LeafInLeaves(v, i, j);
    var pl := Prefixed(p[0], ls)[j];
    assert pl.path == [p[0]] + p[1..];
    assert [p[0]] + p[1..] == p;
    assert pl in Leaves(v) && pl.path == p;
  }

  lemma LeafInLeaves(v: Value, i: nat, j: nat)
    requires IsComposite(v) && i < |Entries(v)| && j < |Leaves(Entries(v)[i].val)|
    ensures Prefixed(Entries(v)[i].key, Leaves(Entries(v)[i].val))[j] in Leaves(v)
  {
    LeafInEntry(v, i, j);
    LeavesFromWithin(v, 0, i);
  }

  lemma LeafInEntry(v: Value, i: nat, j: nat)
    requires IsComposite(v) && i < |Entries(v)| && j < |Leaves(Entries(v)[i].val)|
    ensures Prefixed(Entries(v)[i].key, Leaves(Entries(v)[i].val))[j] in LeavesFrom(v, i)
  {
    var e := Entries(v)[i];
    var head := Prefixed(e.key, Leaves(e.val));
    assert LeavesFrom(v, i) == head + LeavesFrom(v, i + 1);
    assert LeavesFrom(v, i)[j] == head[j];
  }

  lemma {:induction false} LeavesFromWithin(v: Value, i: nat, i': nat)
    requires IsComposite(v) && i <= i' <= |Entries(v)|
    ensures forall l :: l in LeavesFrom(v, i') ==> l in LeavesFrom(v, i)
    decreases i' - i
  {
    if i < i' {
      LeavesFromWithin(v, i + 1, i');
      var e := Entries(v)[i];
      assert LeavesFrom(v, i) == Prefixed(e.key, Leaves(e.val)) + LeavesFrom(v, i + 1);
    }
  }

  /** The enumerated leaves are exactly the leaf paths of the tree. */
  lemma LeafPaths(v: Value, p: seq<string>)
    requires WellFormed(v)
    ensures (exists l :: l in Leaves(v) && l.path == p) <==> IsLeafPath(v, p)
  {
    LeavesSound(v);
    if IsLeafPath(v, p) {
      LeavesComplete(v, p);
    }
  }

  /** No two leaves share a path, and no leaf path is a prefix of another. */
  predicate Apart(ls: seq<Leaf>) {
    forall a, b :: 0 <= a < b < |ls| ==> Diverge(ls[a].path, ls[b].path)
  }

  lemma {:induction false} LeavesDiverge(v: Value)
    requires WellFormed(v)
    ensures Apart(Leaves(v))
    decreases v, 1
  {
    if IsComposite(v) {
      LeavesFromDiverge(v, 0);
    }
  }

  lemma {:induction false} LeavesFromDiverge(v: Value, i: nat)
    requires WellFormed(v) && IsComposite(v) && i <= |Entries(v)|
    ensures Apart(LeavesFrom(v, i))
    decreases v, 0, |Entries(v)| - i
  {
    if i < |Entries(v)| {
      var es := Entries(v);
      var e := es[i];
      EntryBelow(v, i);
      LeavesDiverge(e.val);
      LeavesFromDiverge(v, i + 1);
      var head := Prefixed(e.key, Leaves(e.val));
      var tail := LeavesFrom(v, i + 1);
      PrefixedApart(e.key, Leaves(e.val));
      forall a, b | 0 <= a < |head| && 0 <= b < |tail|
        ensures Diverge(head[a].path, tail[b].path)
      {
        EntryKeyNotLater(v, i, tail[b]);
      }
      ApartAppend(head, tail);
      assert LeavesFrom(v, i) == head + tail;
    }
  }

  /** A leaf enumerated after entry `i` does not start with entry `i`'s key. */
  lemma EntryKeyNotLater(v: Value, i: nat, l: Leaf)
    requires WellFormed(v) && IsComposite(v) && i < |Entries(v)|
    requires l in LeavesFrom(v, i + 1)
    ensures |l.path| >= 1 && l.path[0] != Entries(v)[i].key
  {
    var es := Entries(v);
    LeavesFromKeys(v, i + 1);
    EntryLookup(v, i);
    var k := l.path[0];
    var m :| 0 <= m < |Keys(es[i + 1..])| && Keys(es[i + 1..])[m] == k;
    assert es[i + 1..][m] == es[i + 1 + m];
  }

  lemma PrefixedApart(k: string, ls: seq<Leaf>)
    requires Apart(ls)
    ensures Apart(Prefixed(k, ls))
    ensures forall j :: 0 <= j < |ls| ==> Prefixed(k, ls)[j].path[0] == k
  {
    var r := Prefixed(k, ls);
    forall a, b | 0 <= a < b < |r|
      ensures Diverge(r[a].path, r[b].path)
    {
      DivergeUnderPrefix([k], ls[a].path, ls[b].path);
    }
  }

  lemma ApartAppend(l1: seq<Leaf>, l2: seq<Leaf>)
    requires Apart(l1) && Apart(l2)
    requires forall a, b :: 0 <= a < |l1| && 0 <= b < |l2| ==> Diverge(l1[a].path, l2[b].path)
    ensures Apart(l1 + l2)
  {
    var r := l1 + l2;
    forall a, b | 0 <= a < b < |r|
      ensures Diverge(r[a].path, r[b].path)
    {
      if b < |l1| {
        assert r[a] == l1[a] && r[b] == l1[b];
      } else if a >= |l1| {
        assert r[a] == l2[a - |l1|] && r[b] == l2[b - |l1|];
      } else {
        assert r[a] == l1[a] && r[b] == l2[b - |l1|];
      }
    }
  }

  // ---------------------------------------------------------------------------
  // Resolvers

  /** Where a resolver takes its value from at evaluation time. */
  datatype Source =
    | Literal(value: Value)       // a constant of the spec
    | Expr(access: Access)        // a compiled `{path}` placeholder
    | UriTpl(template: Value)     // a URI template, expanded from the request parameters

  /** A compiled template: the setter for its path and the value source. */
  datatype Resolver = Resolver(steps: seq<Step>, source: Source)

  /** The two ways compiling a spec throws: the `Invalid template` error of the
      placeholder grammar, and the `TypeError` of `[].reduce(...)` without an
      initial value, reached when a container of the spec has no entries. */
  datatype CompileError = InvalidTemplate(message: string) | EmptyComposite

  function PathOf(r: Resolver): seq<string> {
    StepKeys(r.steps)
  }

  /** The source the walker gives to a leaf value: a placeholder when it is a
      `{...}` string with a valid path, a constant otherwise. */
  function SourceOf(v: Value, part: string): Source {
    if v.Str? && Braced(v.s, true) && ValidPath(Inner(v.s)) then Expr(AccessOf(Inner(v.s), part))
    else Literal(v)
  }

  /** The leaf strings the placeholder grammar rejects, with the message. */
  predicate Rejects(v: Value, message: string) {
    v.Str? && Braced(v.s, true) && !ValidPath(Inner(v.s)) && message == "Invalid template " + Inner(v.s)
  }

  /** Every container has an entry and every `{...}` string names a valid path. */
  predicate Compilable(v: Value)
    decreases v
  {
    match v
    case Obj(fs) => |fs| > 0 && forall i :: 0 <= i < |fs| ==> Compilable(fs[i].val)
    case Arr(items) => |items| > 0 && forall i :: 0 <= i < |items| ==> Compilable(items[i])
    case Str(s) => Braced(s, true) ==> ValidPath(Inner(s))
    case _ => true
  }

  /** Some container in the tree has no entries. */
  predicate HasEmptyContainer(v: Value)
    decreases v
  {
    match v
    case Obj(fs) => |fs| == 0 || exists i :: 0 <= i < |fs| && HasEmptyContainer(fs[i].val)
    case Arr(items) => |items| == 0 || exists i :: 0 <= i < |items| && HasEmptyContainer(items[i])
    case _ => false
  }

  lemma CompilableEntries(v: Value)
    requires IsComposite(v)
    ensures Compilable(v) <==>
      |Entries(v)| > 0 && forall i :: 0 <= i < |Entries(v)| ==> Compilable(Entries(v)[i].val)
    ensures HasEmptyContainer(v) <==>
      |Entries(v)| == 0 || exists i :: 0 <= i < |Entries(v)| && HasEmptyContainer(Entries(v)[i].val)
  {
  }

  /** Resolver `r` is the one for the leaf value `v` at the spec path `p`:
      the setter planned for `p` and the leaf's source. */
  predicate MatchesLeaf(spec: Value, part: string, p: seq<string>, r: Resolver, v: Value) {
    Traversable(spec, p) && r.steps == Plan(spec, p) && r.source == SourceOf(v, part)
  }

  /** Resolvers `rs` correspond one to one to leaves `ls` found below the path
      `base` of the spec. */
  predicate Matches(spec: Value, part: string, base: seq<string>, rs: seq<Resolver>, ls: seq<Leaf>) {
    && |rs| == |ls|
    && forall j :: 0 <= j < |rs| ==> MatchesLeaf(spec, part, base + ls[j].path, rs[j], ls[j].value)
  }

  lemma MatchesAppend(spec: Value, part: string, base: seq<string>,
                      r1: seq<Resolver>, l1: seq<Leaf>, r2: seq<Resolver>, l2: seq<Leaf>)
    requires Matches(spec, part, base, r1, l1) && Matches(spec, part, base, r2, l2)
    ensures Matches(spec, part, base, r1 + r2, l1 + l2)
  {
    forall j | 0 <= j < |r1 + r2|
      ensures MatchesLeaf(spec, part, base + (l1 + l2)[j].path, (r1 + r2)[j], (l1 + l2)[j].value)
    {
      if j >= |r1| {
        assert (r1 + r2)[j] == r2[j - |r1|] && (l1 + l2)[j] == l2[j - |l1|];
      } else {
        assert (r1 + r2)[j] == r1[j] && (l1 + l2)[j] == l1[j];
      }
    }
  }

  lemma MatchesUnder(spec: Value, part: string, base: seq<string>, k: string, rs: seq<Resolver>, ls: seq<Leaf>)
    requires Matches(spec, part, base + [k], rs, ls)
    ensures Matches(spec, part, base, rs, Prefixed(k, ls))
  {
    var pl := Prefixed(k, ls);
    forall j | 0 <= j < |rs|
      ensures MatchesLeaf(spec, part, base + pl[j].path, rs[j], pl[j].value)
    {
      var l := ls[j];
      assert MatchesLeaf(spec, part, base + [k] + l.path, rs[j], l.value);
      assert pl[j].path == [k] + l.path && pl[j].value == l.value;
      Reassociate(base, k, l.path);
    }
  }

  lemma Reassociate(base: seq<string>, k: string, p: seq<string>)
    ensures base + ([k] + p) == base + [k] + p
  {
  }

  // ---------------------------------------------------------------------------
  // The walk

  /** `makeResolvers(templateSpec, templatePath)` followed by the recursion of
      `_createTemplateResolvers`: a container yields the resolvers of its
      entries in key order, a `{...}` string a compiled placeholder, any other
      value a constant. Succeeds exactly for compilable trees, and then yields
      one resolver per leaf, in leaf order. */
  function Walk(spec: Value, node: Value, part: string, path: string): (r: Result<seq<Resolver>, CompileError>)
    requires Traversable(spec, Split(path)) && Lookup(spec, Split(path)) == node
    requires WellFormed(node) && SafeKeys(node)
    ensures r.Ok? <==> Compilable(node)
    ensures r.Ok? ==> Matches(spec, part, Split(path), r.value, Leaves(node))
    ensures r.Err? && r.error.InvalidTemplate? ==> exists l :: l in Leaves(node) && Rejects(l.value, r.error.message)
    ensures r.Err? && r.error.EmptyComposite? ==> HasEmptyContainer(node)
    decreases node, 1
  {
    if IsComposite(node) then
      CompilableEntries(node);
      if |Entries(node)| == 0 then Err(EmptyComposite)
      else WalkFrom(spec, node, 0, part, path)
    else
      assert Leaves(node) == [Leaf([], node)];
      WalkLeaf(spec, node, part, path)
  }

  /** `makeResolvers` on a value that is not an object: a `{...}` string is
      compiled as a placeholder, anything else is set as it is. */
  function WalkLeaf(spec: Value, node: Value, part: string, path: string): (r: Result<seq<Resolver>, CompileError>)
    requires Traversable(spec, Split(path)) && !IsComposite(node)
    ensures r.Ok? <==> Compilable(node)
    ensures r.Ok? ==> Matches(spec, part, Split(path), r.value, [Leaf([], node)])
    ensures r.Err? ==> r.error.InvalidTemplate? && Rejects(node, r.error.message)
  {
    var steps := Plan(spec, Split(path));
    assert Split(path) + [] == Split(path);
    if node.Str? && Braced(node.s, true) then
      var c := CompilePlaceholder(node.s, part);
      if c.Err? then Err(InvalidTemplate(c.error))
      else Ok([Resolver(steps, Expr(c.value))])
    else Ok([Resolver(steps, Literal(node))])
  }

  /** The entries from index `i` on, in order: the first error thrown wins,
      otherwise the resolver lists are concatenated. */
  function WalkFrom(spec: Value, node: Value, i: nat, part: string, path: string): (r: Result<seq<Resolver>, CompileError>)
    requires IsComposite(node) && i <= |Entries(node)|
    requires Traversable(spec, Split(path)) && Lookup(spec, Split(path)) == node
    requires WellFormed(node) && SafeKeys(node)
    ensures r.Ok? <==> forall e :: i <= e < |Entries(node)| ==> Compilable(Entries(node)[e].val)
    ensures r.Ok? ==> Matches(spec, part, Split(path), r.value, LeavesFrom(node, i))
    ensures r.Err? && r.error.InvalidTemplate? ==> exists l :: l in LeavesFrom(node, i) && Rejects(l.value, r.error.message)
    ensures r.Err? && r.error.EmptyComposite? ==>
      exists e :: i <= e < |Entries(node)| && HasEmptyContainer(Entries(node)[e].val)
    decreases node, 0, |Entries(node)| - i
  {
    if i == |Entries(node)| then Ok([])
    else
      var e := Entries(node)[i];
      EntryBelow(node, i);
      EntryLookup(node, i);
      EntrySafe(node, i);
      var sub := path + "." + e.key;
      SplitExtend(path, e.key);
      LookupSnoc(spec, Split(path), e.key);
      TraversableSnoc(spec, Split(path), e.key);
      var head := Walk(spec, e.val, part, sub);
      var all := LeavesFrom(node, i);
      assert all == Prefixed(e.key, Leaves(e.val)) + LeavesFrom(node, i + 1);
      if head.Err? then
        HeadErrorLifts(node, i, head.error);
        Err(head.error)
      else
        var tail := WalkFrom(spec, node, i + 1, part, path);
        if tail.Err? then
          TailErrorLifts(node, i, tail.error);
          tail
        else
          MatchesUnder(spec, part, Split(path), e.key, head.value, Leaves(e.val));
          MatchesAppend(spec, part, Split(path), head.value, Prefixed(e.key, Leaves(e.val)), tail.value, LeavesFrom(node, i + 1));
          Ok(head.value + tail.value)
  }

  lemma HeadErrorLifts(node: Value, i: nat, err: CompileError)
    requires IsComposite(node) && i < |Entries(node)|
    requires err.InvalidTemplate? ==> exists l :: l in Leaves(Entries(node)[i].val) && Rejects(l.value, err.message)
    ensures err.InvalidTemplate? ==> exists l :: l in LeavesFrom(node, i) && Rejects(l.value, err.message)
  {
    var e := Entries(node)[i];
    if err.InvalidTemplate? {
      var l :| l in Leaves(e.val) && Rejects(l.value, err.message);
      var j :| 0 <= j < |Leaves(e.val)| && Leaves(e.val)[j] == l;
      var pl := Prefixed(e.key, Leaves(e.val))[j];
      assert LeavesFrom(node, i) == Prefixed(e.key, Leaves(e.val)) + LeavesFrom(node, i + 1);
      assert pl in LeavesFrom(node, i) && pl.value == l.value;
    }
  }

  lemma TailErrorLifts(node: Value, i: nat, err: CompileError)
    requires IsComposite(node) && i < |Entries(node)|
    requires err.InvalidTemplate? ==> exists l :: l in LeavesFrom(node, i + 1) && Rejects(l.value, err.message)
    ensures err.InvalidTemplate? ==> exists l :: l in LeavesFrom(node, i) && Rejects(l.value, err.message)
  {
    LeavesFromWithin(node, i, i + 1);
  }
}
